=== FILE: README.md ===
# ChoreTracker in Dafny

ChoreTracker is a wall panel of 18 lights (three MCP23017 port expanders with
six buttons and LEDs each). A chore is a schedule attached to one light: when
it falls due the light comes on, once it is overdue the light flashes, and
switching the light off counts as doing the chore, after which a repeating
chore is re-armed and a one-shot chore is dropped. This project models the
three pieces that carry that logic and proves what they promise.

- **The state server** (`server/state_server.py`). `Calendar` gives the
  Gregorian calendar and `datetime + timedelta` arithmetic the server relies
  on. `Intervals` holds `parse_timedelta` and `add_interval`: the month shift
  with end-of-month clamping, then the fixed duration, and the repeated
  advance used by `handle_reset`. `ScheduleTable` gives the meaning of each
  table operation as a function: upsert, delete, reset, and one schedule's
  turn in the scheduler loop. `StateServer.Server` is the server's state
  (`STATES`, `SCHEDULES`) as a class whose methods are the POST handlers,
  `set_state`, `handle_reset` and one iteration of `schedule_loop`, each
  proved against those functions.
- **The web client** (`server/web/app.js`). `JsText` models `String(n)` and
  `parseInt` on digit strings. `WebApp` models the button layout, `labelFor`
  and `formatInterval`. `WebForm.ScheduleForm` is the schedule form as an
  object, with `populateForm`, the two preset toggles and the payload
  `submitForm` builds. `ScheduleList.ScheduleTableView` is the rebuild of the
  schedule table and of `scheduleMap` done by `fetchSchedules`.
- **The firmware** (`src/main.cpp`). `Firmware` models the `buttons` array
  as a 3 x 6 `array2`, with `setup` and the debounce-and-toggle pass of
  `loop`.

Datetimes are calendar fields plus a second of the day, all in UTC. An
interval record is the list of its JSON entries in key order. A request
handler, a scheduler tick and a firmware pass each run to completion. The
clocks (`datetime.now`, `time.time`, `millis`), the pin readings and the
form's date text are parameters.

## Model

| member | source | states |
|---|---|---|
| Records.Lookup | server/state_server.py:52-56 | `data.get(key)`: a value is found iff the record has an entry with that key, and the value is that entry's |
| Records.ValueOr0 | server/state_server.py:53-57 | `data.get(key, 0)`: the value of an entry with that key, or 0 when the record has none |
| Calendar.DaysInMonth | server/state_server.py:73-74 | every month has 28 to 31 days; April, June, September and November have 30, the other months but February 31 |
| Calendar.IsLeapYear | server/state_server.py:73 | a leap year is divisible by 4; a year divisible by 400 is one; any other century is not |
| Calendar.FebruaryLength | server/state_server.py:73 | February has 29 days iff the year is a leap year (divisible by 4, and not by 100 unless by 400), else 28; no other month depends on the year |
| Calendar.OrderFacts | server/state_server.py:252 | datetime comparison is a strict total order |
| Calendar.Before | server/state_server.py:252 | datetime `<` is irreflexive and agrees with the month order: an earlier month means an earlier datetime, and an earlier datetime is never in a later month |
| Calendar.NextDay | server/state_server.py:84 | the next calendar day is a valid date, later, same time of day |
| Calendar.PrevDay | server/state_server.py:84 | the previous calendar day is a valid date, earlier, same time of day |
| Calendar.PrevNext | server/state_server.py:84 | stepping one day forward and back returns to the same date |
| Calendar.AddDays | server/state_server.py:84 | adding whole days keeps a valid date and the time of day |
| Calendar.AddDaysShift | server/state_server.py:84 | adding n days is one day then n-1 days (and backwards) |
| Calendar.AddDaysAdd | server/state_server.py:84 | adding a days then b days is adding a+b days |
| Calendar.AddDaysTimeOfDay | server/state_server.py:84 | adding days does not depend on the time of day |
| Calendar.AddDaysLater | server/state_server.py:84 | adding a positive number of days gives a later date |
| Calendar.AddSeconds | server/state_server.py:84 | `dt + timedelta(seconds=n)` is a valid datetime for every n, negative included |
| Calendar.AddSecondsAdd | server/state_server.py:84 | `(dt + a) + b == dt + (a + b)` |
| Calendar.AddSecondsInverse | server/state_server.py:84 | `(dt + a) - a == dt` |
| Calendar.AddSecondsMonotone | server/state_server.py:84 | a positive duration moves a datetime strictly later, a non-negative one never earlier |
| Intervals.ParseTimedelta | server/state_server.py:48-57 | zero for a missing or empty record, otherwise the weighted sum of the weeks, days, hours, minutes and seconds entries with missing keys as 0 |
| Intervals.Duration | server/state_server.py:77-83 | the fixed part of an interval; a record with none of the five timedelta keys gives zero |
| Intervals.DurationIsWeightedSum | server/state_server.py:51-57 | for a record without repeated keys, the duration is `weeks*604800 + days*86400 + hours*3600 + minutes*60 + seconds` summed over its entries |
| Intervals.ShiftMonths | server/state_server.py:66-76 | the month shift lands `years*12 + months` months later (floor division, so negative shifts work), on a valid date whose day is `min(day, length of the target month)`, at the same time of day |
| Intervals.MonthsOf | server/state_server.py:66-67 | `months + years*12`; a record with neither key shifts no month, so the `if months` branch is skipped |
| Intervals.ShiftMonthsInverse | server/state_server.py:66-76 | on days 1-28 a shift by k months and back by k months returns to the same date |
| Intervals.ShiftMonthsAdd | server/state_server.py:66-76 | two shifts land in the same month as one combined shift, on a day no later |
| Intervals.AddInterval | server/state_server.py:60-84 | `add_interval` always yields a valid datetime |
| Intervals.AddIntervalUsesParseTimedelta | server/state_server.py:77-84 | the fixed part added is exactly `parse_timedelta` of the record, and it is added after the month shift |
| Intervals.EndOfMonthClamp | server/state_server.py:72-76 | Jan 31 + 1 month is Feb 28 in 2023 and Feb 29 in 2024; Jan 31 1900 + 1 year 1 month is Feb 28 1901 |
| Intervals.ShiftBeforeDuration | server/state_server.py:66-84 | `{months:1, days:1}` from Jan 30 gives Mar 1; doing the days first would give Feb 28 |
| Intervals.ForwardAdvances | server/state_server.py:252-253 | an interval that does not move backwards and moves forward in months or duration gives a strictly later date |
| Intervals.ZeroIntervalStalls | server/state_server.py:252-253 | `{days: 0}` leaves the date unchanged, so once its first step is at or before now the roll-forward loop never ends |
| Intervals.ZeroIntervalRollsOnce | server/state_server.py:250-253 | with `{days: 0}` and a due date after now the loop ends after its single first step, leaving the due date as it was |
| Intervals.MonthIndexMonotone | server/state_server.py:252 | an earlier datetime is in the same or an earlier month |
| Intervals.Advance | server/state_server.py:251-253 | k successive `add_interval` steps give a valid datetime |
| Intervals.NextDueAfter | server/state_server.py:250-253 | for any interval whose first step already lands after now, or that moves every date forward, the rolled-forward due date is valid and strictly after now |
| Intervals.StepsPastNow | server/state_server.py:251-253 | the roll-forward takes at least one step |
| Intervals.AdvanceFirst | server/state_server.py:251-253 | k+1 steps are one step followed by k steps |
| Intervals.NextDueAfterIsAdvance | server/state_server.py:251-253 | the rolled-forward date is a whole number of interval steps from the old due date |
| Intervals.NextDueAfterIsFirst | server/state_server.py:252 | every earlier step is at or before now, so the result is the first step after now |
| ScheduleTable.Count | server/state_server.py:197-199 | a light has no schedule iff none of the entries has its key |
| ScheduleTable.Without | server/state_server.py:223-225 | removing a light's schedules shortens the table by their number and leaves none of them |
| ScheduleTable.WithoutAppend | server/state_server.py:223-225 | removal distributes over concatenation, so the kept entries keep their order |
| ScheduleTable.WithoutWellFormed | server/state_server.py:223-225 | removal keeps every stored schedule well formed |
| ScheduleTable.WithoutAbsent | server/state_server.py:223-225 | removing a light that has no schedule changes nothing |
| ScheduleTable.RemoveFirst | server/state_server.py:199 | `list.remove`: the first equal entry goes |
| ScheduleTable.RemoveFirstAfter | server/state_server.py:199 | `remove` finds the entry right after a prefix that does not hold it |
| ScheduleTable.RemoveLoopStep | server/state_server.py:197-199 | one turn of the loop over the copy of the list extends the cleaned prefix by one entry |
| ScheduleTable.HandleOne | server/state_server.py:197-199 | after entries of other lights, a matching schedule is the one `remove` takes out and any other entry stays, so one turn drops exactly what `Without` drops |
| ScheduleTable.FirstMatch | server/state_server.py:246-247 | the index of the light's first schedule; none iff it has no schedule |
| ScheduleTable.FirstMatchAt | server/state_server.py:246-247 | a left-to-right search that stops at i has found the first match |
| ScheduleTable.NewSchedule | server/state_server.py:200-210 | the stored schedule belongs to the posted light, is idle and not flashing, and is well formed when its due date is a date |
| ScheduleTable.Upsert | server/state_server.py:196-211 | after `POST /schedule` the light has exactly one schedule, at the end, and the other entries are those of before, in order |
| ScheduleTable.UpsertIdempotent | server/state_server.py:196-211 | submitting the same schedule twice is the same as once |
| ScheduleTable.DeleteAfterUpsert | server/state_server.py:196-229 | deleting right after an upsert leaves the table without that light |
| ScheduleTable.DeleteRemovesAll | server/state_server.py:221-229 | after a delete the light has no schedule; deleting an absent light is a no-op |
| ScheduleTable.Rearmed | server/state_server.py:248-253 | a re-armed schedule is idle, not flashing and due strictly after now; every other field (light, name, intervals, overdue start, last flash) is kept |
| ScheduleTable.Reset | server/state_server.py:244-257 | reset keeps the table well formed and changes nothing for a light without a schedule |
| ScheduleTable.ResetOneShotAt | server/state_server.py:254-255 | resetting a one-shot schedule is `SCHEDULES.remove` of it |
| ScheduleTable.CountSplit | server/state_server.py:244-257 | counting and removal split around one entry |
| ScheduleTable.ResetKeepsOthers | server/state_server.py:244-257 | reset leaves the schedules of every other light untouched and in order |
| ScheduleTable.ResetRepeatingKeepsOthers | server/state_server.py:248-253 | re-arming in place leaves the other lights' schedules as they were |
| ScheduleTable.ResetOneShot | server/state_server.py:254-255 | a one-shot schedule is removed: one schedule fewer for the light and in the table |
| ScheduleTable.RemoveAtWellFormed | server/state_server.py:255 | removing one entry keeps the table well formed |
| ScheduleTable.RemoveAtEffect | server/state_server.py:255 | removing a matching entry lowers the light's count by one and keeps the others |
| ScheduleTable.DropMatchingHead | server/state_server.py:255 | a matching head entry is dropped and counted once |
| ScheduleTable.ResetRepeating | server/state_server.py:248-253 | only the first matching schedule changes, even when the light has several: every other entry is the same, and that one stays in place, keeps all fields but three, and becomes idle, not flashing and due at the first step after now |
| ScheduleTable.SetCell | server/state_server.py:125-127 | `set_state` writes one cell and no other |
| ScheduleTable.PyIndex | server/state_server.py:269 | Python list indexing: negative indices count from the end; outside `-len..len-1` it raises |
| ScheduleTable.InRange | server/state_server.py:178 | the range check of `POST /state` accepts exactly the indices Python does not wrap |
| ScheduleTable.Cell | server/state_server.py:269 | `STATES[chip][pin]` names a cell iff `-3 <= chip < 3` and `-6 <= pin < 6`; that cell lies on the grid, and is the light itself when it is in range |
| ScheduleTable.Activate | server/state_server.py:264-267 | the activation step keeps the grid 3 x 6 |
| ScheduleTable.Repair | server/state_server.py:269-270 | for an active schedule that is not flashing, a light on the grid found off (0) is set to 1 and any other reading is left alone, and the step succeeds exactly when the light is on the grid; a flashing schedule is left alone; the schedule itself never changes |
| ScheduleTable.StartFlashing | server/state_server.py:271-274 | the schedule flashes afterwards iff it already did or its overdue start has been reached; the last flash changes only when flashing starts, to the current second; nothing else changes |
| ScheduleTable.Toggled | server/state_server.py:279 | a light that is on is switched off and one that is off is switched on; the result is 0 or 1 |
| ScheduleTable.Flash | server/state_server.py:275-280 | the flash step keeps the grid 3 x 6 |
| ScheduleTable.Step | server/state_server.py:263-280 | a schedule's turn keeps it well formed, changes only its active, flashing, overdue-start and last-flash fields, and never clears active or flashing |
| ScheduleTable.StepInRangeIsOk | server/state_server.py:263-280 | a schedule of a light on the panel never raises |
| ScheduleTable.NegativeIndexWraps | server/state_server.py:269 | chip -1, pin -6 reaches light (2, 0); chip 3 or pin -7 raises |
| ScheduleTable.StepFrame | server/state_server.py:263-280 | a turn changes at most the one cell its schedule names, and none when indexing raises |
| ScheduleTable.StepNotDue | server/state_server.py:264 | an idle schedule that is not yet due is left alone |
| ScheduleTable.StepActivates | server/state_server.py:264-274 | a due idle schedule becomes active, switches its light on and sets `overdue_start = now + parse_timedelta(overdue)`; with a non-positive overdue duration it starts flashing in the same tick |
| ScheduleTable.StepRepairs | server/state_server.py:268-274 | an active schedule of a light on the grid that is not flashing and whose overdue time has not come keeps its light on: a light found off is switched back on, everything else and the schedule stay as they were |
| ScheduleTable.StepStartsFlashing | server/state_server.py:271-274 | an active schedule starts flashing once now has reached its overdue start, recording the current second |
| ScheduleTable.StepFlashes | server/state_server.py:275-280 | a flashing schedule toggles its light iff the second differs from its last toggle, and records the second |
| ScheduleTable.FlashOncePerSecond | server/state_server.py:275-280 | within one second a flashing light toggles at most once |
| ScheduleTable.TickPrefix | server/state_server.py:263-280 | after the first n turns the grid is 3 x 6, the table well formed and the unvisited schedules untouched |
| ScheduleTable.TickStopsAfterCrash | server/state_server.py:263-280 | once a turn has raised, the rest of the tick does nothing |
| ScheduleTable.TickInRangeStaysAlive | server/state_server.py:263-280 | when every schedule names a light on the panel, a tick never kills the scheduler |
| ScheduleTable.ResetThenStepIsQuiet | server/state_server.py:248-264 | right after a reset at now, the re-armed schedule does not fire again in a tick at now |
| StateServer.ZeroGrid | server/state_server.py:40 | the initial grid is 3 x 6 and all off |
| StateServer.RollForward | server/state_server.py:251-253 | the `while` loop computes the first interval step after now |
| StateServer.Server.constructor | server/state_server.py:40 | a fresh server has all lights off and no schedules |
| StateServer.Server.SetState | server/state_server.py:125-127 | `set_state` writes `STATES[chip][pin]` and nothing else |
| StateServer.Server.RemoveLight | server/state_server.py:223-225 | the loop over a copy of the list removes exactly the light's schedules, keeping the rest in order |
| StateServer.Server.PostSchedule | server/state_server.py:188-218 | 200 iff chip, pin and due are readable, and then the table is the upsert; otherwise 400 and nothing changes |
| StateServer.Server.PostDelete | server/state_server.py:219-232 | 200 iff chip and pin are readable, and then the light's schedules are gone; otherwise 400 and nothing changes |
| StateServer.Server.HandleReset | server/state_server.py:244-257 | the table becomes the reset table and the grid is untouched |
| StateServer.Server.PostState | server/state_server.py:173-187 | 200 iff the fields are readable and `0 <= chip < 3`, `0 <= pin < 6`; then exactly one cell becomes 0 or 1 and the reset runs only for 0; otherwise 400 and nothing changes |
| StateServer.Server.Tick | server/state_server.py:260-281 | one loop iteration visits the schedules in order, each in place, stopping at the first one that raises, whose thread then makes no further tick |
| JsText.NatToString | server/web/app.js:75 | decimal digits, nonempty, a leading 0 only for zero |
| JsText.IntToString | server/web/app.js:75 | `String(n)`: a minus sign then digits for a negative number, digits otherwise |
| JsText.DigitsValue | server/web/app.js:192 | the value of a digit string, 0 for the empty one |
| JsText.ParseInt | server/web/app.js:192 | `parseInt(text, 10)` is NaN iff the text is not an optional minus sign followed by digits |
| JsText.DigitsOfNat | server/web/app.js:192 | the digits written for n read back as n |
| JsText.ParseIntToString | server/web/app.js:192-193 | `parseInt(String(n), 10) == n` for every integer |
| JsText.NatToStringInjective | server/web/app.js:9-13 | different numbers have different decimal texts |
| JsText.IntToStringInjective | server/web/app.js:75 | `String(a) == String(b)` iff `a == b` |
| WebApp.FindIndex | server/web/app.js:89 | `findIndex`: -1 iff absent, otherwise the first position holding the value |
| WebApp.LayoutIndex | server/web/app.js:3-7 | the row-major position of a light is below 18 |
| WebApp.FlatLayout | server/web/app.js:3-7 | position k of the flattened layout is chip `(k mod 6) / 2`, pin `2*(k/6) + 1 - k mod 2` |
| WebApp.LayoutAtOnPanel | server/web/app.js:3-7 | every layout entry is a light of the panel, at its own position |
| WebApp.LayoutIndexInverse | server/web/app.js:3-7 | every light of the panel appears in the layout at `LayoutIndex` |
| WebApp.LayoutIsPanel | server/web/app.js:3-7 | the 18 layout entries are exactly the 3 x 6 lights, and `findIndex` finds each at its position |
| WebApp.LabelsAreNumbers | server/web/app.js:9-13 | label k is the decimal text of k+1 |
| WebApp.LabelForOnPanel | server/web/app.js:88-91 | a light of the panel gets `PIN_LABELS` at its row-major position |
| WebApp.LayoutIndexInjective | server/web/app.js:3-7 | different lights of the panel sit at different positions of the flattened layout |
| WebApp.LabelsDistinct | server/web/app.js:88-91 | different lights of the panel get different labels |
| WebApp.LabelForOffPanel | server/web/app.js:89-90 | a pair outside the panel is shown as `chip/pin` |
| WebApp.Flatten | server/web/app.js:89 | `.flat()` starts with the first row, and three rows of six give 18 entries |
| WebApp.LabelFor | server/web/app.js:88-91 | a label is never empty; `LabelForOnPanel` and `LabelForOffPanel` say which text it is |
| WebApp.Join | server/web/app.js:94 | joining no parts gives the empty text |
| WebApp.EntryText | server/web/app.js:94 | an entry's text is the value in decimal, one space, then the key |
| WebApp.FormatInterval | server/web/app.js:93-95 | the text is empty iff the record is null, undefined or `{}` |
| WebApp.JoinAppend | server/web/app.js:94 | joining one more part adds a single space and the part |
| WebApp.FormatIntervalAppend | server/web/app.js:93-95 | the entries appear as `v k` in key order, separated by single spaces |
| WebForm.Field | server/web/app.js:105-106 | `s.repeat?.[key]` is undefined when the record is missing, and otherwise is the record's value for a key it holds |
| WebForm.Truthy | server/web/app.js:109 | a value is truthy exactly when the empty-string fallback of `populateForm` shows it as text, that is when it is present and not 0 |
| WebForm.FieldText | server/web/app.js:105-106 | the input text with its empty-string fallback is empty iff the value is missing or zero, and otherwise reads back as the value |
| WebForm.ClassifyRepeat | server/web/app.js:108-116 | `{days:1}` with falsy hours shows daily, `{days:7}` weekly; any other present record, `{}` included, shows the advanced panel; a missing one shows nothing |
| WebForm.ClassifyOverdue | server/web/app.js:120-128 | days 1 or 3 with falsy hours marks 1d or 3d; nothing otherwise |
| WebForm.ToggledRepeat | server/web/app.js:161-174 | clicking an active preset clears the group and both inputs; clicking another makes it the only active one with days 1 or 7 and empty hours; the advanced panel is hidden; nothing else changes |
| WebForm.ToggledOverdue | server/web/app.js:176-187 | the same for the overdue group with days 1 or 3, leaving the advanced panel alone |
| WebForm.IntervalPayload | server/web/app.js:201-208 | `repeat`/`overdue` is sent iff one of its inputs is non-empty, and then holds exactly the non-empty ones, parsed, days first |
| WebForm.Stored | server/state_server.py:194-195 | the record the server keeps and sends back holds exactly the non-null entries that were posted, each with the value posted, and no more entries than were sent |
| WebForm.StoredAppend | server/state_server.py:194-195 | the kept entries stay in the order in which they were posted |
| WebForm.ScheduleForm.constructor | server/web/app.js:97-130 | a form object starts in the given state |
| WebForm.ScheduleForm.SelectPin | server/web/app.js:44-50 | the chip and pin inputs show the numbers and only the light's button is selected, if it is on the panel |
| WebForm.ScheduleForm.ShowRepeat | server/web/app.js:103-116 | the repeat inputs, preset buttons and advanced panel show the classification of the repeat record; nothing else changes |
| WebForm.ScheduleForm.ShowOverdue | server/web/app.js:117-128 | the overdue inputs and preset buttons show the classification of the overdue record; nothing else changes |
| WebForm.ScheduleForm.PopulateForm | server/web/app.js:97-130 | every input shows the schedule, at most one preset per group is active, the advanced panel shows exactly for a non-preset repeat, and the delete button is shown |
| WebForm.ScheduleForm.ToggleRepeatPreset | server/web/app.js:161-174 | the form becomes `ToggledRepeat` of what it was, keeping at most one active preset per group |
| WebForm.ScheduleForm.ToggleOverduePreset | server/web/app.js:176-187 | the form becomes `ToggledOverdue` of what it was, keeping at most one active preset per group |
| WebForm.ScheduleForm.BuildPayload | server/web/app.js:189-208 | nothing is sent when the due text is not a date; otherwise chip, pin, name and due are always present and repeat/overdue are the optional records |
| WebForm.RepeatToggleTwice | server/web/app.js:161-174 | clicking an inactive repeat preset twice returns to no preset and empty inputs |
| WebForm.RepeatToggleSwitches | server/web/app.js:161-174 | clicking a second repeat preset leaves only it active |
| WebForm.OverdueToggleTwice | server/web/app.js:176-187 | clicking an inactive overdue preset twice returns to no preset and empty inputs |
| WebForm.PopulateThenSubmit | server/web/app.js:197-208 | editing a schedule and submitting unchanged sends its non-zero days and hours back, days first |
| WebForm.RepeatPresetRoundTrip | server/web/app.js:108-112 | a repeat preset chosen in the form is recognised as the same preset when the schedule comes back |
| WebForm.OverduePresetRoundTrip | server/web/app.js:120-127 | an overdue preset chosen in the form is recognised as the same preset when the schedule comes back |
| ScheduleList.Reverse | server/web/app.js:73 | `slice().reverse()`: position j holds the j-th entry from the end |
| ScheduleList.RowOf | server/web/app.js:78-80 | a row shows the schedule's name and a non-empty light label, and its repeat or overdue column is empty iff that record is missing or empty |
| ScheduleList.Key | server/web/app.js:75 | the key is the chip's text, a dash, and the pin's text |
| ScheduleList.KeyReadsBack | server/web/app.js:75 | `parseInt` reads the chip back from the text before the dash and the pin from the text after it |
| ScheduleList.MarkedLights | server/web/app.js:83-84 | a button is marked scheduled iff its light is on the panel and has a schedule in the list |
| ScheduleList.MarkedReverse | server/web/app.js:73-84 | walking the reversed list marks the same buttons |
| ScheduleList.RowsOf | server/web/app.js:76-82 | one table row per schedule |
| ScheduleList.RowsOfAt | server/web/app.js:76-82 | row j shows the j-th schedule visited |
| ScheduleList.RowsReversed | server/web/app.js:73-82 | row j shows the j-th schedule from the end of the server's list |
| ScheduleList.FirstFor | server/web/app.js:73-75 | the first position in the server's list holding the light, if any |
| ScheduleList.DashEndsChip | server/web/app.js:75 | in a `chip-pin` key the chip part ends at the first dash after position 0 |
| ScheduleList.KeyInjective | server/web/app.js:75 | two lights share a `scheduleMap` key iff they are the same light |
| ScheduleList.AssignedReverse | server/web/app.js:71-75 | after the rebuild a light has an entry iff the server listed it, and the entry is its first schedule in the server's order |
| ScheduleList.AssignedReverseIn | server/web/app.js:71-75 | a light has an entry iff the server listed it |
| ScheduleList.AssignedReverseAt | server/web/app.js:71-75 | the entry is the light's first schedule in the server's order |
| ScheduleList.AssignedReverseStep | server/web/app.js:73-75 | the first schedule of the list is written last |
| ScheduleList.AssignedKeys | server/web/app.js:75 | every key of the map belongs to some listed schedule |
| ScheduleList.VisitNext | server/web/app.js:74-85 | visiting one more schedule updates the map, rows and marks by that schedule alone |
| ScheduleList.ScheduleTableView.constructor | server/web/app.js:14 | the map, table and marks start empty |
| ScheduleList.ScheduleTableView.Visit | server/web/app.js:74-85 | one `forEach` turn sets the map entry, appends a row and marks the button if there is one |
| ScheduleList.ScheduleTableView.Refresh | server/web/app.js:69-85 | the map, rows and marks are rebuilt from scratch by walking the reversed list |
| Firmware.Elapsed | src/main.cpp:53 | `millis() - lastDebounceTime` in 32-bit unsigned arithmetic, wrapping past 2^32 |
| Firmware.Initial | src/main.cpp:28-34 | the button's input pin is its LED pin plus 8, the LED is off, and a released button left alone never changes its record or writes its LED |
| Firmware.Debounce | src/main.cpp:46-63 | `lastReading` becomes the reading; the debounce time is reset iff the reading changed; the debounced state changes only after more than 50 ms of a stable reading and then takes the reading, so a reading that just changed is never accepted; the LED flips iff the debounced state changes to LOW |
| Firmware.LedWrite | src/main.cpp:56-58 | the LED is written iff it flips, with its new level |
| Firmware.HoldDoesNotRetoggle | src/main.cpp:53-58 | holding a button down after its press was accepted never toggles the LED again |
| Firmware.PressToggles | src/main.cpp:49-58 | a press toggles the LED not at the first LOW reading but at a later step more than 50 ms on |
| Firmware.Setup | src/main.cpp:25-35 | every button gets `ledPin = pin`, `btnPin = 8 + pin`, LED off, debounced and last reading HIGH, debounce time 0 |
| Firmware.StepButton | src/main.cpp:46-63 | the button's record becomes `Debounce` of what it was, its LED write is `LedWrite`, and no other record changes |
| Firmware.Loop | src/main.cpp:43-66 | one pass steps every one of the 3 x 6 buttons once, with its own reading and its own `millis()` value, and reports each LED write |

## Left out

- HTTP plumbing: headers, status bodies, JSON decoding and `Content-Length`. A request is modelled after decoding. A missing key, or a value `int()` rejects, becomes None. A failing `fromisoformat` also becomes None.
- `int()` applied to interval values that are not integers (strings, floats), and the TypeError a null interval value causes in `parse_timedelta`. Interval values are integers here.
- File persistence (`load_states`, `save_states`, `load_schedules`, `save_schedules`). A fresh server starts as if neither file exists.
- Threads and process startup (`run`, `run_web_server`, the daemon thread, `time.sleep`). Handlers and ticks share `SCHEDULES` without a lock in the source; here each runs atomically.
- The clocks are parameters: `datetime.now` for `handle_reset` and each tick, `time.time()` and `millis()`. A tick reads the whole-second clock once, whereas the source reads it at lines 274 and 276. A firmware button step uses one `millis()` value, whereas the source reads it twice (lines 50 and 53); each button of a pass gets its own value.
- Time zones, microseconds and the year range 1..9999. All datetimes are UTC whole seconds. The ValueError or OverflowError Python raises outside that year range is not modelled.
- `GET /states`, `GET /schedules` serialisation and the 404 path.
- StateServer.Server.HandleReset: requires that the light's first schedule, when it repeats, either lands after now in one step or has an interval that moves every date strictly forward (`Intervals.Rolls`). When neither holds the source may loop for ever: with `{"days": 0}` and a due date at or before now it does (`Intervals.ZeroIntervalStalls`). An interval with a negative part that still moves dates forward, such as `{"months": 1, "days": -1}`, is also excluded once its first step is at or before now, although the source's loop ends.
- StateServer.Server.PostState: carries the same requirement, but only for a request that switches a light of the panel off, the one case that calls the reset.
- StateServer.Server.RemoveLight: removes the light's schedules from a local copy of the list and stores the result once. The source removes them from `SCHEDULES` one at a time; with each handler atomic, no one sees the list in between.
- StateServer.Server.Tick: the server keeps no record that the scheduler thread has died; after a tick that returns false the caller makes no further call.
- Calendar.DaysInMonth: written as branches on the month rather than as the source's 12-entry table. The values are the same.
- `applyDuePreset`, the browser's `Date` parsing and formatting, `toLocaleString` and the local-time `due` text. The due text is a parameter.
- DOM, theme and event wiring: `initTheme`, `updateThemeIcon`, `buildGrid`, the listeners, `fetch`.
- `handlePinClick` for a light without a schedule, and the reset after `submitForm` and `deleteSchedule`. Both call `form.reset()`, which restores the page's HTML defaults. The page is not part of this model.
- WebForm.Stored: drops an entry whose value `parseInt` made NaN (sent as null), because the client only reads numbers back; the server stores it as null.
- The client's copy of a schedule leaves out `active` and `flashing`, which the page never reads.
- The `selected` class on panel buttons is modelled as the one highlighted light, `selected`.
- JsText.ParseInt: models `parseInt` only on an optional minus sign followed by digits. Leading blanks, a `+` sign and trailing non-digits are left out.
- Arduino, Wire and MCP23017 calls: `begin_I2C`, `pinMode`, the `digitalWrite(LOW)` in `setup`. Pin readings are inputs, and the LED writes of `loop` are outputs.

=== FILE: calendar.dfy ===
/** The part of Python's `datetime` that the schedule logic relies on: a
    proleptic Gregorian date with a time of day, ordering, and adding a
    fixed number of seconds (`dt + timedelta(...)`). All datetimes are UTC. */
module Calendar {

  const SecondsPerDay := 86400

  /** A date and the number of seconds since midnight. */
  datatype DateTime = DateTime(year: int, month: int, day: int, second: int)

  /** The Gregorian rule: every fourth year, except centuries not divisible
      by 400. */
  predicate IsLeapYear(y: int)
    ensures IsLeapYear(y) ==> y % 4 == 0
    ensures y % 400 == 0 ==> IsLeapYear(y)
    ensures y % 100 == 0 && y % 400 != 0 ==> !IsLeapYear(y)
  {
    y % 4 == 0 && (y % 100 != 0 || y % 400 == 0)
  }

  function DaysInMonth(y: int, m: int): (n: int)
    requires 1 <= m <= 12
    ensures 28 <= n <= 31
    ensures m == 4 || m == 6 || m == 9 || m == 11 ==> n == 30
    ensures m == 1 || m == 3 || m == 5 || m == 7 || m == 8 || m == 10 || m == 12 ==> n == 31
  {
    if m == 2 then (if IsLeapYear(y) then 29 else 28)
    else if m == 4 || m == 6 || m == 9 || m == 11 then 30
    else 31
  }

  /** February is the only month whose length depends on the year. */
  lemma FebruaryLength(y: int)
    ensures DaysInMonth(y, 2) == 29 <==> IsLeapYear(y)
    ensures DaysInMonth(y, 2) == 28 <==> !IsLeapYear(y)
    ensures forall m :: 1 <= m <= 12 && m != 2 ==> DaysInMonth(y, m) == DaysInMonth(y + 1, m)
  {
  }

  predicate Valid(t: DateTime)
  {
    && 1 <= t.month <= 12
    && 1 <= t.day <= DaysInMonth(t.year, t.month)
    && 0 <= t.second < SecondsPerDay
  }

  /** Months counted from year 0, month 1; each month has its own index. */
  function MonthIndex(t: DateTime): int
  {
    t.year * 12 + t.month - 1
  }

  /** `a < b` on Python datetimes: lexicographic on (year, month, day, time). */
  predicate Before(a: DateTime, b: DateTime)
    ensures Before(a, b) ==> a != b
    ensures 1 <= a.month <= 12 && 1 <= b.month <= 12 && Before(a, b) ==> MonthIndex(a) <= MonthIndex(b)
    ensures 1 <= a.month <= 12 && 1 <= b.month <= 12 && MonthIndex(a) < MonthIndex(b) ==> Before(a, b)
  {
    || a.year < b.year
    || (a.year == b.year && a.month < b.month)
    || (a.year == b.year && a.month == b.month && a.day < b.day)
    || (a.year == b.year && a.month == b.month && a.day == b.day && a.second < b.second)
  }

  predicate AtOrBefore(a: DateTime, b: DateTime)
  {
    !Before(b, a)
  }

  /** Strictly ordered dates, ignoring the time of day. */
  predicate DateBefore(a: DateTime, b: DateTime)
  {
    Before(a.(second := 0), b.(second := 0))
  }

  lemma OrderFacts(a: DateTime, b: DateTime, c: DateTime)
    ensures Before(a, b) ==> !Before(b, a)
    ensures Before(a, b) && Before(b, c) ==> Before(a, c)
    ensures AtOrBefore(a, b) && AtOrBefore(b, c) ==> AtOrBefore(a, c)
    ensures Before(a, b) || a == b || Before(b, a)
    ensures AtOrBefore(a, b) && Before(b, c) ==> Before(a, c)
  {
  }

  function NextDay(t: DateTime): (r: DateTime)
    requires Valid(t)
    ensures Valid(r) && r.second == t.second && DateBefore(t, r)
  {
    if t.day < DaysInMonth(t.year, t.month) then t.(day := t.day + 1)
    else if t.month < 12 then t.(month := t.month + 1, day := 1)
    else t.(year := t.year + 1, month := 1, day := 1)
  }

  function PrevDay(t: DateTime): (r: DateTime)
    requires Valid(t)
    ensures Valid(r) && r.second == t.second && DateBefore(r, t)
  {
    if t.day > 1 then t.(day := t.day - 1)
    else if t.month > 1 then t.(month := t.month - 1, day := DaysInMonth(t.year, t.month - 1))
    else t.(year := t.year - 1, month := 12, day := 31)
  }

  lemma PrevNext(t: DateTime)
    requires Valid(t)
    ensures PrevDay(NextDay(t)) == t && NextDay(PrevDay(t)) == t
  {
  }

  /** The date `n` days away (backwards when `n` is negative), same time of day. */
  function AddDays(t: DateTime, n: int): (r: DateTime)
    requires Valid(t)
    ensures Valid(r) && r.second == t.second
    decreases if n < 0 then -n else n
  {
    if n == 0 then t
    else if n > 0 then AddDays(NextDay(t), n - 1)
    else AddDays(PrevDay(t), n + 1)
  }

  /** `dt + timedelta(seconds=secs)`: carry whole days into the date, keep
      the remainder (floor division, so negative amounts borrow a day). */
  function AddSeconds(t: DateTime, secs: int): (r: DateTime)
    requires Valid(t)
    ensures Valid(r)
  {
    var total := t.second + secs;
    AddDays(t.(second := total % SecondsPerDay), total / SecondsPerDay)
  }

  lemma AddDaysShift(t: DateTime, n: int)
    requires Valid(t)
    ensures AddDays(NextDay(t), n - 1) == AddDays(t, n)
    ensures AddDays(PrevDay(t), n + 1) == AddDays(t, n)
  {
    PrevNext(t);
  }

  /** Adding days composes: the days are counted on a single time line. */
  lemma {:induction false} AddDaysAdd(t: DateTime, a: int, b: int)
    requires Valid(t)
    ensures AddDays(AddDays(t, a), b) == AddDays(t, a + b)
    decreases if a < 0 then -a else a
  {
    if a > 0 {
      AddDaysAdd(NextDay(t), a - 1, b);
      AddDaysShift(t, a + b);
    } else if a < 0 {
      AddDaysAdd(PrevDay(t), a + 1, b);
      AddDaysShift(t, a + b);
    }
  }

  /** The time of day plays no part in moving the date. */
  lemma {:induction false} AddDaysTimeOfDay(t: DateTime, n: int, s: int)
    requires Valid(t) && 0 <= s < SecondsPerDay
    ensures AddDays(t.(second := s), n) == AddDays(t, n).(second := s)
    decreases if n < 0 then -n else n
  {
    DayStepTimeOfDay(t, s);
    if n > 0 {
      AddDaysTimeOfDay(NextDay(t), n - 1, s);
    } else if n < 0 {
      AddDaysTimeOfDay(PrevDay(t), n + 1, s);
    }
  }

  lemma DayStepTimeOfDay(t: DateTime, s: int)
    requires Valid(t) && 0 <= s < SecondsPerDay
    ensures NextDay(t.(second := s)) == NextDay(t).(second := s)
    ensures PrevDay(t.(second := s)) == PrevDay(t).(second := s)
  {
  }

  /** Moving forward a positive number of days gives a later date. */
  lemma {:induction false} AddDaysLater(t: DateTime, n: int)
    requires Valid(t) && n > 0
    ensures DateBefore(t, AddDays(t, n))
    decreases n
  {
    if n > 1 {
      AddDaysLater(NextDay(t), n - 1);
    }
  }

  lemma DivModUnique(total: int, q: int, r: int)
    requires total == q * SecondsPerDay + r && 0 <= r < SecondsPerDay
    ensures total / SecondsPerDay == q && total % SecondsPerDay == r
  {
  }

  /** `(dt + a) + b == dt + (a + b)`, as for timedelta arithmetic. */
  lemma AddSecondsAdd(t: DateTime, a: int, b: int)
    requires Valid(t)
    ensures AddSeconds(AddSeconds(t, a), b) == AddSeconds(t, a + b)
  {
    var t1 := t.second + a;
    var q1, r1 := t1 / SecondsPerDay, t1 % SecondsPerDay;
    var mid := AddSeconds(t, a);
    assert mid == AddDays(t.(second := r1), q1);
    var t2 := r1 + b;
    var q2, r2 := t2 / SecondsPerDay, t2 % SecondsPerDay;
    DivModUnique(t.second + a + b, q1 + q2, r2);
    calc {
      AddSeconds(mid, b);
      AddDays(mid.(second := r2), q2);
      { AddDaysTimeOfDay(t.(second := r1), q1, r2); }
      AddDays(AddDays(t.(second := r2), q1), q2);
      { AddDaysAdd(t.(second := r2), q1, q2); }
      AddDays(t.(second := r2), q1 + q2);
    }
  }

  /** Subtracting what was added gives the original datetime back. */
  lemma AddSecondsInverse(t: DateTime, secs: int)
    requires Valid(t)
    ensures AddSeconds(AddSeconds(t, secs), -secs) == t
  {
    AddSecondsAdd(t, secs, -secs);
  }

  /** Adding a positive number of seconds moves strictly forward in time;
      adding zero or more never moves back. */
  lemma AddSecondsMonotone(t: DateTime, secs: int)
    requires Valid(t)
    ensures secs > 0 ==> Before(t, AddSeconds(t, secs))
    ensures secs >= 0 ==> AtOrBefore(t, AddSeconds(t, secs))
  {
    if secs >= 0 {
      var total := t.second + secs;
      var q := total / SecondsPerDay;
      if q > 0 {
        AddDaysLater(t.(second := total % SecondsPerDay), q);
      }
    }
  }
}

=== FILE: firmware.dfy ===
/** src/main.cpp: the button panel firmware. `buttons` holds one record per
    light, `Setup` initialises it and `Loop` runs one pass of the debounce
    and toggle logic over all 3 x 6 buttons. Pin reads and `millis()` are
    inputs; LED writes are outputs. */
module Firmware {
  const NumChips := 3
  const NumPins := 6

  /** Logic levels; buttons are wired with pull-ups, so LOW means pressed. */
  const High := true
  const Low := false

  /** `unsigned long` on the target: 32 bits. */
  const ULongModulus := 0x1_0000_0000
  type ULong = x: int | 0 <= x < ULongModulus

  const DebounceDelay: ULong := 50

  datatype ButtonData = ButtonData(
    ledPin: nat, btnPin: nat, ledState: bool, buttonState: bool,
    lastReading: bool, lastDebounceTime: ULong)

  /** `now - since` in unsigned arithmetic, wrapping past 2^32. */
  function Elapsed(now: ULong, since: ULong): (d: ULong)
    ensures since <= now ==> d == now - since
    ensures now < since ==> d == now - since + ULongModulus
  {
    (now - since) % ULongModulus
  }

  /** What one step does to a button's LED: nothing, or a `digitalWrite`. */
  datatype LedOutput = NoWrite | Written(level: bool)

  /** The record `setup` leaves for pin `pin` of any chip. */
  function Initial(pin: nat): (b: ButtonData)
    ensures b.btnPin == b.ledPin + 8 && !b.ledState
    ensures forall now: ULong :: Debounce(b, High, now) == b && LedWrite(b, High, now) == NoWrite
  {
    ButtonData(pin, 8 + pin, false, High, High, 0)
  }

  /** One button's step in `loop`, given the level read and the clock. */
  function Debounce(b: ButtonData, reading: bool, now: ULong): (r: ButtonData)
    ensures r.ledPin == b.ledPin && r.btnPin == b.btnPin
    ensures r.lastReading == reading
    ensures r.lastDebounceTime == (if reading != b.lastReading then now else b.lastDebounceTime)
    ensures r.buttonState != b.buttonState ==>
              r.buttonState == reading && Elapsed(now, r.lastDebounceTime) > DebounceDelay
    ensures reading != b.lastReading ==> r.buttonState == b.buttonState
    ensures (reading == b.lastReading && reading != b.buttonState
             && Elapsed(now, b.lastDebounceTime) > DebounceDelay) ==> r.buttonState == reading
    ensures r.ledState != b.ledState <==> r.buttonState != b.buttonState && r.buttonState == Low
  {
    var t := if reading != b.lastReading then now else b.lastDebounceTime;
    var accept := Elapsed(now, t) > DebounceDelay && reading != b.buttonState;
    ButtonData(b.ledPin, b.btnPin,
               if accept && reading == Low then !b.ledState else b.ledState,
               if accept then reading else b.buttonState,
               reading, t)
  }

  /** The level written to the button's LED in this step, if any. */
  function LedWrite(b: ButtonData, reading: bool, now: ULong): (w: LedOutput)
    ensures w.Written? <==> Debounce(b, reading, now).ledState != b.ledState
    ensures w.Written? ==> w.level == Debounce(b, reading, now).ledState
  {
    var r := Debounce(b, reading, now);
    if r.ledState != b.ledState then Written(r.ledState) else NoWrite
  }

  /** The debounced state after the readings `rs` at the times `ts`. */
  function Run(b: ButtonData, rs: seq<bool>, ts: seq<ULong>): ButtonData
    requires |rs| == |ts|
    decreases |rs|
  {
    if rs == [] then b else Run(Debounce(b, rs[0], ts[0]), rs[1..], ts[1..])
  }

  /** Holding the button down after the press was accepted never toggles
      the LED again, however long it is held. */
  lemma {:induction false} HoldDoesNotRetoggle(b: ButtonData, rs: seq<bool>, ts: seq<ULong>)
    requires |rs| == |ts| && b.buttonState == Low
    requires forall k :: 0 <= k < |rs| ==> rs[k] == Low
    ensures Run(b, rs, ts).ledState == b.ledState && Run(b, rs, ts).buttonState == Low
    decreases |rs|
  {
    if rs != [] {
      HoldDoesNotRetoggle(Debounce(b, rs[0], ts[0]), rs[1..], ts[1..]);
    }
  }

  /** A press that stays down for more than the debounce delay toggles the
      LED exactly once: not when the level first changes, but at the first
      step that finds it stable for longer than 50 ms. */
  lemma PressToggles(b: ButtonData, t0: ULong, t1: ULong)
    requires b.buttonState == High && b.lastReading == High
    requires Elapsed(t1, t0) > DebounceDelay
    ensures Debounce(b, Low, t0).ledState == b.ledState
    ensures Debounce(Debounce(b, Low, t0), Low, t1).buttonState == Low
    ensures Debounce(Debounce(b, Low, t0), Low, t1).ledState == !b.ledState
  {
  }

  /** `setup`: initialise every button record. */
  method Setup(buttons: array2<ButtonData>)
    requires buttons.Length0 == NumChips && buttons.Length1 == NumPins
    modifies buttons
    ensures forall c, p :: 0 <= c < NumChips && 0 <= p < NumPins ==> buttons[c, p] == Initial(p)
  {
    for chip := 0 to NumChips
      invariant forall c, p :: 0 <= c < chip && 0 <= p < NumPins ==> buttons[c, p] == Initial(p)
    {
      for pin := 0 to NumPins
        invariant forall c, p :: 0 <= c < chip && 0 <= p < NumPins ==> buttons[c, p] == Initial(p)
        invariant forall p :: 0 <= p < pin ==> buttons[chip, p] == Initial(p)
      {
        buttons[chip, pin] := ButtonData(pin, 8 + pin, false, High, High, 0);
      }
    }
  }

  /** The body of `loop` for one button: update its record in place. */
  method StepButton(buttons: array2<ButtonData>, chip: nat, pin: nat, reading: bool, now: ULong)
    returns (write: LedOutput)
    requires chip < buttons.Length0 && pin < buttons.Length1
    modifies buttons
    ensures buttons[chip, pin] == Debounce(old(buttons[chip, pin]), reading, now)
    ensures write == LedWrite(old(buttons[chip, pin]), reading, now)
    ensures forall c, p :: 0 <= c < buttons.Length0 && 0 <= p < buttons.Length1 && (c, p) != (chip, pin) ==>
              buttons[c, p] == old(buttons[c, p])
  {
    var b := buttons[chip, pin];
    write := NoWrite;
    if reading != b.lastReading {
      b := b.(lastDebounceTime := now);
    }
    if Elapsed(now, b.lastDebounceTime) > DebounceDelay {
      if reading != b.buttonState {
        b := b.(buttonState := reading);
        if b.buttonState == Low {
          b := b.(ledState := !b.ledState);
          write := Written(b.ledState);
        }
      }
    }
    b := b.(lastReading := reading);
    buttons[chip, pin] := b;
  }

  /** `loop`: one pass over all buttons, chip by chip, pin by pin, with
      `readings[c][p]` the level read from button (c, p) and `nows[c][p]`
      the `millis()` value during its step, so later buttons may see a later
      clock. `writes[c][p]` is the level written to that button's LED. */
  method Loop(buttons: array2<ButtonData>, readings: seq<seq<bool>>, nows: seq<seq<ULong>>)
    returns (writes: seq<seq<LedOutput>>)
    requires buttons.Length0 == NumChips && buttons.Length1 == NumPins
    requires |readings| == NumChips && forall c :: 0 <= c < NumChips ==> |readings[c]| == NumPins
    requires |nows| == NumChips && forall c :: 0 <= c < NumChips ==> |nows[c]| == NumPins
    modifies buttons
    ensures |writes| == NumChips && forall c :: 0 <= c < NumChips ==> |writes[c]| == NumPins
    ensures forall c, p :: 0 <= c < NumChips && 0 <= p < NumPins ==>
              buttons[c, p] == Debounce(old(buttons[c, p]), readings[c][p], nows[c][p])
              && writes[c][p] == LedWrite(old(buttons[c, p]), readings[c][p], nows[c][p])
  {
    writes := [];
    for chip := 0 to NumChips
      invariant |writes| == chip && forall c :: 0 <= c < chip ==> |writes[c]| == NumPins
      invariant forall c, p :: 0 <= c < chip && 0 <= p < NumPins ==>
                  buttons[c, p] == Debounce(old(buttons[c, p]), readings[c][p], nows[c][p])
                  && writes[c][p] == LedWrite(old(buttons[c, p]), readings[c][p], nows[c][p])
      invariant forall c, p :: chip <= c < NumChips && 0 <= p < NumPins ==> buttons[c, p] == old(buttons[c, p])
    {
      var row: seq<LedOutput> := [];
      for pin := 0 to NumPins
        invariant |row| == pin
        invariant forall c, p :: 0 <= c < chip && 0 <= p < NumPins ==>
                    buttons[c, p] == Debounce(old(buttons[c, p]), readings[c][p], nows[c][p])
        invariant forall p :: 0 <= p < pin ==>
                    buttons[chip, p] == Debounce(old(buttons[chip, p]), readings[chip][p], nows[chip][p])
                    && row[p] == LedWrite(old(buttons[chip, p]), readings[chip][p], nows[chip][p])
        invariant forall p :: pin <= p < NumPins ==> buttons[chip, p] == old(buttons[chip, p])
        invariant forall c, p :: chip < c < NumChips && 0 <= p < NumPins ==> buttons[c, p] == old(buttons[c, p])
      {
        var w := StepButton(buttons, chip, pin, readings[chip][pin], nows[chip][pin]);
        row := row + [w];
      }
      writes := writes + [row];
    }
  }
}

=== FILE: intervals.dfy ===
/** The schedule server's interval arithmetic: `parse_timedelta` and
    `add_interval` (server/state_server.py). */
module Intervals {
  import opened Records
  import opened Calendar

  /** Seconds per unit of each fixed-length key a timedelta accepts;
      any other key contributes nothing to the fixed duration. */
  function UnitSeconds(key: string): nat
  {
    if key == "weeks" then 604800
    else if key == "days" then 86400
    else if key == "hours" then 3600
    else if key == "minutes" then 60
    else if key == "seconds" then 1
    else 0
  }

  /** The timedelta built from the fixed-length keys, missing keys being 0. */
  function Duration(iv: Interval): (d: int)
    ensures (forall i :: 0 <= i < |iv| ==> UnitSeconds(iv[i].0) == 0) ==> d == 0
  {
    ValueOr0(iv, "weeks") * 604800 + ValueOr0(iv, "days") * 86400
      + ValueOr0(iv, "hours") * 3600 + ValueOr0(iv, "minutes") * 60
      + ValueOr0(iv, "seconds")
  }

  /** `parse_timedelta`: a missing or empty record is the zero duration. */
  function ParseTimedelta(data: Option<Interval>): (r: int)
    ensures data == None || data == Some([]) ==> r == 0
    ensures data.Some? && data.value != [] ==> r == Duration(data.value)
  {
    match data
    case None => 0
    case Some(iv) => if iv == [] then 0 else Duration(iv)
  }

  /** Reference reading of a duration: each entry adds its value times the
      length of its unit. */
  function WeightedSum(iv: Interval): int
  {
    if iv == [] then 0 else UnitSeconds(iv[0].0) * iv[0].1 + WeightedSum(iv[1..])
  }

  predicate DistinctKeys(iv: Interval)
  {
    forall i, j :: 0 <= i < j < |iv| ==> iv[i].0 != iv[j].0
  }

  /** A record decoded from JSON has each key once, so the duration the
      server computes is the weighted sum of its entries. */
  lemma {:induction false} DurationIsWeightedSum(iv: Interval)
    ensures DistinctKeys(iv) ==> Duration(iv) == WeightedSum(iv)
    ensures DistinctKeys(iv) ==> ParseTimedelta(Some(iv)) == WeightedSum(iv)
  {
    if iv != [] && DistinctKeys(iv) {
      var rest := iv[1..];
      assert DistinctKeys(rest) by {
        forall i, j | 0 <= i < j < |rest| ensures rest[i].0 != rest[j].0 {
          assert rest[i] == iv[i + 1] && rest[j] == iv[j + 1];
        }
      }
      DurationIsWeightedSum(rest);
      var k := iv[0].0;
      assert forall i :: 0 <= i < |rest| ==> rest[i].0 != k by {
        forall i | 0 <= i < |rest| ensures rest[i].0 != k {
          assert rest[i] == iv[i + 1];
        }
      }
      assert ValueOr0(rest, k) == 0;
      DurationCons(iv);
    }
  }

  /** The duration of a record is its first entry's share plus the
      duration of the rest, taken with the first key dropped. */
  lemma DurationCons(iv: Interval)
    requires iv != [] && ValueOr0(iv[1..], iv[0].0) == 0
    ensures Duration(iv) == UnitSeconds(iv[0].0) * iv[0].1 + Duration(iv[1..])
  {
    ValueOr0Cons(iv, "weeks");
    ValueOr0Cons(iv, "days");
    ValueOr0Cons(iv, "hours");
    ValueOr0Cons(iv, "minutes");
    ValueOr0Cons(iv, "seconds");
  }

  lemma ValueOr0Cons(iv: Interval, key: string)
    requires iv != []
    ensures ValueOr0(iv, key) == if iv[0].0 == key then iv[0].1 else ValueOr0(iv[1..], key)
  {
  }

  /** `years*12 + months`, the calendar part of an interval. */
  function MonthsOf(iv: Interval): (m: int)
    ensures (forall i :: 0 <= i < |iv| ==> iv[i].0 != "months" && iv[i].0 != "years") ==> m == 0
  {
    ValueOr0(iv, "months") + ValueOr0(iv, "years") * 12
  }

  function Min(a: int, b: int): int
  {
    if a <= b then a else b
  }

  /** The month shift of `add_interval`: move `months` calendar months and
      clamp the day to the length of the month reached. */
  function ShiftMonths(t: DateTime, months: int): (r: DateTime)
    requires Valid(t)
    ensures Valid(r)
    ensures MonthIndex(r) == MonthIndex(t) + months
    ensures r.day == Min(t.day, DaysInMonth(r.year, r.month)) && r.second == t.second
  {
    if months == 0 then t
    else
      var m0 := t.month - 1 + months;
      var year := t.year + m0 / 12;
      var month := m0 % 12 + 1;
      t.(year := year, month := month, day := Min(t.day, DaysInMonth(year, month)))
  }

  /** A day that every month has survives a shift there and back. */
  lemma ShiftMonthsInverse(t: DateTime, months: int)
    requires Valid(t) && t.day <= 28
    ensures ShiftMonths(ShiftMonths(t, months), -months) == t
  {
    var r := ShiftMonths(t, months);
    var back := ShiftMonths(r, -months);
    assert MonthIndex(back) == MonthIndex(t);
    assert back.year == t.year && back.month == t.month;
  }

  /** Shifts by `a` then by `b` months reach the same month as one shift by `a + b`. */
  lemma ShiftMonthsAdd(t: DateTime, a: int, b: int)
    requires Valid(t)
    ensures MonthIndex(ShiftMonths(ShiftMonths(t, a), b)) == MonthIndex(ShiftMonths(t, a + b))
    ensures ShiftMonths(ShiftMonths(t, a), b).day <= ShiftMonths(t, a + b).day
  {
    var ab := ShiftMonths(ShiftMonths(t, a), b);
    var direct := ShiftMonths(t, a + b);
    assert ab.year == direct.year && ab.month == direct.month;
  }

  /** `add_interval`: the month shift first, then the fixed duration. */
  function AddInterval(t: DateTime, iv: Interval): (r: DateTime)
    requires Valid(t)
    ensures Valid(r)
  {
    AddSeconds(ShiftMonths(t, MonthsOf(iv)), Duration(iv))
  }

  /** The fixed part added is exactly what `parse_timedelta` gives for the
      same record, including the empty one. */
  lemma AddIntervalUsesParseTimedelta(t: DateTime, iv: Interval)
    requires Valid(t)
    ensures AddInterval(t, iv) == AddSeconds(ShiftMonths(t, MonthsOf(iv)), ParseTimedelta(Some(iv)))
  {
  }

  /** January 31st plus one month is the last day of February, which has
      29 days in a leap year. */
  lemma EndOfMonthClamp()
    ensures AddInterval(DateTime(2023, 1, 31, 0), [("months", 1)]) == DateTime(2023, 2, 28, 0)
    ensures AddInterval(DateTime(2024, 1, 31, 0), [("months", 1)]) == DateTime(2024, 2, 29, 0)
    ensures AddInterval(DateTime(1900, 1, 31, 0), [("years", 1), ("months", 1)]) == DateTime(1901, 2, 28, 0)
  {
    OneMonthFromJanuary31(2023, 28);
    OneMonthFromJanuary31(2024, 29);
    ThirteenMonthsFromJanuary31();
  }

  lemma ThirteenMonthsFromJanuary31()
    ensures AddInterval(DateTime(1900, 1, 31, 0), [("years", 1), ("months", 1)]) == DateTime(1901, 2, 28, 0)
  {
    var yearAndMonth: Interval := [("years", 1), ("months", 1)];
    assert MonthsOf(yearAndMonth) == 13 && Duration(yearAndMonth) == 0;
    assert DaysInMonth(1901, 2) == 28;
    assert ShiftMonths(DateTime(1900, 1, 31, 0), 13) == DateTime(1901, 2, 28, 0);
  }

  lemma OneMonthFromJanuary31(y: int, feb: int)
    requires feb == DaysInMonth(y, 2)
    ensures AddInterval(DateTime(y, 1, 31, 0), [("months", 1)]) == DateTime(y, 2, feb, 0)
  {
    var oneMonth: Interval := [("months", 1)];
    assert MonthsOf(oneMonth) == 1 && Duration(oneMonth) == 0;
    assert ShiftMonths(DateTime(y, 1, 31, 0), 1) == DateTime(y, 2, feb, 0);
  }

  /** The month shift happens before the fixed duration is added: adding the
      day first would give February 28th instead of March 1st. */
  lemma ShiftBeforeDuration()
    ensures AddInterval(DateTime(2023, 1, 30, 0), [("months", 1), ("days", 1)]) == DateTime(2023, 3, 1, 0)
    ensures ShiftMonths(AddSeconds(DateTime(2023, 1, 30, 0), 86400), 1) == DateTime(2023, 2, 28, 0)
  {
    var iv: Interval := [("months", 1), ("days", 1)];
    assert MonthsOf(iv) == 1 && Duration(iv) == 86400;
    var feb28 := DateTime(2023, 2, 28, 0);
    assert ShiftMonths(DateTime(2023, 1, 30, 0), 1) == feb28;
    assert AddSeconds(feb28, 86400) == AddDays(feb28, 1);
    assert AddDays(feb28, 1) == AddDays(NextDay(feb28), 0);
    assert AddSeconds(DateTime(2023, 1, 30, 0), 86400) == AddDays(DateTime(2023, 1, 30, 0), 1);
    assert AddDays(DateTime(2023, 1, 30, 0), 1) == AddDays(DateTime(2023, 1, 31, 0), 0);
  }

  /** An interval that moves every date strictly forward. */
  predicate Forward(iv: Interval)
  {
    MonthsOf(iv) >= 0 && Duration(iv) >= 0 && (MonthsOf(iv) > 0 || Duration(iv) > 0)
  }

  /** The roll-forward loop of `handle_reset` ends: either the first step
      already lands after `now`, or every step moves the date forward. */
  predicate Rolls(due: DateTime, iv: Interval, now: DateTime)
    requires Valid(due)
  {
    Forward(iv) || Before(now, AddInterval(due, iv))
  }

  lemma ForwardAdvances(t: DateTime, iv: Interval)
    requires Valid(t) && Forward(iv)
    ensures Before(t, AddInterval(t, iv))
  {
    var shifted := ShiftMonths(t, MonthsOf(iv));
    AddSecondsMonotone(shifted, Duration(iv));
    if MonthsOf(iv) > 0 {
      assert Before(t, shifted);
    }
    OrderFacts(t, shifted, AddInterval(t, iv));
  }

  /** An interval whose entries are all zero does not move the date, so
      rolling forward with it never ends once its first step is at or
      before `now`. */
  lemma ZeroIntervalStalls(t: DateTime)
    requires Valid(t)
    ensures AddInterval(t, [("days", 0)]) == t
  {
  }

  lemma MonthIndexMonotone(a: DateTime, b: DateTime)
    requires Valid(a) && Valid(b) && AtOrBefore(a, b)
    ensures MonthIndex(a) <= MonthIndex(b)
  {
  }

  /** `add_interval` applied `k` times. */
  function Advance(t: DateTime, iv: Interval, k: nat): (r: DateTime)
    requires Valid(t)
    ensures Valid(r)
    decreases k
  {
    if k == 0 then t else Advance(AddInterval(t, iv), iv, k - 1)
  }

  /** The loop of `handle_reset`: advance once, then keep advancing while the
      due date is not after `now`. */
  function NextDueAfter(due: DateTime, iv: Interval, now: DateTime): (r: DateTime)
    requires Valid(due) && Valid(now) && Rolls(due, iv, now)
    ensures Valid(r) && Before(now, r)
    decreases MonthIndex(now) - MonthIndex(due), 31 - due.day, SecondsPerDay - due.second
  {
    var next := AddInterval(due, iv);
    if Before(now, next) then next
    else
      ForwardAdvances(due, iv);
      MonthIndexMonotone(due, next);
      MonthIndexMonotone(next, now);
      NextDueAfter(next, iv, now)
  }

  /** How many applications of the interval `NextDueAfter` makes. */
  function StepsPastNow(due: DateTime, iv: Interval, now: DateTime): (k: nat)
    requires Valid(due) && Valid(now) && Rolls(due, iv, now)
    ensures k >= 1
    decreases MonthIndex(now) - MonthIndex(due), 31 - due.day, SecondsPerDay - due.second
  {
    var next := AddInterval(due, iv);
    if Before(now, next) then 1
    else
      ForwardAdvances(due, iv);
      MonthIndexMonotone(due, next);
      MonthIndexMonotone(next, now);
      1 + StepsPastNow(next, iv, now)
  }

  /** One turn of the loop that does not stop: the interval moves the date
      forward, and the rest of the loop starts from the advanced date. */
  lemma RollStep(due: DateTime, iv: Interval, now: DateTime)
    requires Valid(due) && Valid(now) && Rolls(due, iv, now) && !Before(now, AddInterval(due, iv))
    ensures Forward(iv) && Rolls(AddInterval(due, iv), iv, now)
    ensures Before(due, AddInterval(due, iv)) && Valid(AddInterval(due, iv))
    ensures var next := AddInterval(due, iv);
            || MonthIndex(due) < MonthIndex(next)
            || (MonthIndex(due) == MonthIndex(next) && due.day < next.day)
            || (MonthIndex(due) == MonthIndex(next) && due.day == next.day && due.second < next.second)
    ensures MonthIndex(due) <= MonthIndex(AddInterval(due, iv)) <= MonthIndex(now)
    ensures NextDueAfter(due, iv, now) == NextDueAfter(AddInterval(due, iv), iv, now)
    ensures StepsPastNow(due, iv, now) == 1 + StepsPastNow(AddInterval(due, iv), iv, now)
  {
    var next := AddInterval(due, iv);
    ForwardAdvances(due, iv);
    MonthIndexMonotone(due, next);
    MonthIndexMonotone(next, now);
  }

  /** The turn of the loop that stops: one application of the interval. */
  lemma RollStop(due: DateTime, iv: Interval, now: DateTime)
    requires Valid(due) && Valid(now) && Before(now, AddInterval(due, iv))
    ensures Rolls(due, iv, now)
    ensures NextDueAfter(due, iv, now) == AddInterval(due, iv) == Advance(due, iv, 1)
    ensures StepsPastNow(due, iv, now) == 1
    ensures NextDueAfter(due, iv, now) == Advance(due, iv, StepsPastNow(due, iv, now))
  {
  }

  lemma AdvanceFirst(due: DateTime, iv: Interval, k: nat)
    requires Valid(due)
    ensures Advance(due, iv, k + 1) == Advance(AddInterval(due, iv), iv, k)
  {
  }

  /** The new due date is reached by whole applications of the interval. */
  lemma {:induction false} NextDueAfterIsAdvance(due: DateTime, iv: Interval, now: DateTime)
    requires Valid(due) && Valid(now) && Rolls(due, iv, now)
    ensures NextDueAfter(due, iv, now) == Advance(due, iv, StepsPastNow(due, iv, now))
    decreases StepsPastNow(due, iv, now)
  {
    var next := AddInterval(due, iv);
    if Before(now, next) {
      RollStop(due, iv, now);
    } else {
      RollStep(due, iv, now);
      NextDueAfterIsAdvance(next, iv, now);
      AdvanceFirst(due, iv, StepsPastNow(next, iv, now));
    }
  }

  /** ... and it is the first one after `now`: every earlier application of
      the interval gave a date at or before `now`. */
  lemma {:induction false} NextDueAfterIsFirst(due: DateTime, iv: Interval, now: DateTime, j: nat)
    requires Valid(due) && Valid(now) && Rolls(due, iv, now)
    requires 1 <= j < StepsPastNow(due, iv, now)
    ensures AtOrBefore(Advance(due, iv, j), now)
    decreases j
  {
    var next := AddInterval(due, iv);
    assert !Before(now, next);
    RollStep(due, iv, now);
    AdvanceFirst(due, iv, j - 1);
    if j > 1 {
      NextDueAfterIsFirst(next, iv, now, j - 1);
    }
  }

  /** An interval that does not move the date still ends the loop when its
      first step is already after `now`: the due date is advanced once. */
  lemma ZeroIntervalRollsOnce(due: DateTime, now: DateTime)
    requires Valid(due) && Valid(now) && Before(now, due)
    ensures Rolls(due, [("days", 0)], now) && !Forward([("days", 0)])
    ensures NextDueAfter(due, [("days", 0)], now) == due
  {
    ZeroIntervalStalls(due);
  }
}

=== FILE: js_text.dfy ===
/** The two number/text conversions the web client relies on: `String(n)`
    (a template literal or an assignment to an input's `value`) for whole
    numbers, and `parseInt(text, 10)` on the text of a number input. */
module JsText {
  import opened Records

  predicate IsDigit(c: char) {
    '0' <= c <= '9'
  }

  function DigitChar(d: nat): (c: char)
    requires d < 10
    ensures IsDigit(c) && c as int - '0' as int == d
  {
    ('0' as int + d) as char
  }

  function DigitValue(c: char): (d: nat)
    requires IsDigit(c)
    ensures d < 10 && DigitChar(d) == c
  {
    c as int - '0' as int
  }

  /** Decimal digits of `n`, most significant first, without leading zeros. */
  function NatToString(n: nat): (s: string)
    ensures 0 < |s| && forall i :: 0 <= i < |s| ==> IsDigit(s[i])
    ensures (s[0] == '0') <==> n == 0
  {
    if n < 10 then [DigitChar(n)] else NatToString(n / 10) + [DigitChar(n % 10)]
  }

  /** `String(i)` for a whole number: a minus sign before a negative one. */
  function IntToString(i: int): (s: string)
    ensures 0 < |s|
    ensures i < 0 ==> s[0] == '-' && |s| >= 2 && forall k :: 1 <= k < |s| ==> IsDigit(s[k])
    ensures i >= 0 ==> forall k :: 0 <= k < |s| ==> IsDigit(s[k])
  {
    if i < 0 then "-" + NatToString(-i) else NatToString(i)
  }

  predicate AllDigits(s: string) {
    forall i :: 0 <= i < |s| ==> IsDigit(s[i])
  }

  /** The value of a string of decimal digits. */
  function DigitsValue(s: string): (n: nat)
    requires AllDigits(s)
    ensures s == [] ==> n == 0
  {
    if s == [] then 0 else DigitsValue(s[..|s| - 1]) * 10 + DigitValue(s[|s| - 1])
  }

  /** `parseInt(text, 10)` on an optional minus sign followed by digits;
      None stands for NaN, which the empty text gives. */
  function ParseInt(s: string): (r: Option<int>)
    ensures r.None? <==> s == [] || s == "-" || !AllDigits(if s[0] == '-' then s[1..] else s)
    ensures r.Some? && s[0] != '-' ==> r.value >= 0
  {
    if s == [] then None
    else if s[0] == '-' then
      if |s| > 1 && AllDigits(s[1..]) then Some(-(DigitsValue(s[1..]) as int)) else None
    else if AllDigits(s) then Some(DigitsValue(s))
    else None
  }

  lemma {:induction false} DigitsOfNat(n: nat)
    ensures AllDigits(NatToString(n)) && DigitsValue(NatToString(n)) == n
  {
    if n >= 10 {
      DigitsOfNat(n / 10);
      var s := NatToString(n);
      assert s[..|s| - 1] == NatToString(n / 10);
    }
  }

  /** Reading back what `String` wrote gives the number again. */
  lemma ParseIntToString(i: int)
    ensures ParseInt(IntToString(i)) == Some(i)
  {
    if i < 0 {
      DigitsOfNat(-i);
      assert IntToString(i)[1..] == NatToString(-i);
    } else {
      DigitsOfNat(i);
    }
  }

  lemma NatToStringInjective(a: nat, b: nat)
    requires a != b
    ensures NatToString(a) != NatToString(b)
  {
    DigitsOfNat(a);
    DigitsOfNat(b);
  }

  lemma IntToStringInjective(a: int, b: int)
    ensures IntToString(a) == IntToString(b) <==> a == b
  {
    if IntToString(a) == IntToString(b) {
      ParseIntToString(a);
      ParseIntToString(b);
    }
  }
}

=== FILE: records.dfy ===
/** Values shared by the server, the web page and their JSON contract. */
module Records {

  datatype Option<T> = None | Some(value: T)

  /** An interval record as it travels in JSON: its entries in key order,
      e.g. {"days": 1, "hours": 2} is [("days", 1), ("hours", 2)]. */
  type Interval = seq<(string, int)>

  /** The value stored under `key`, if the record has one. */
  function Lookup(iv: Interval, key: string): (r: Option<int>)
    ensures r.Some? <==> exists i :: 0 <= i < |iv| && iv[i].0 == key
    ensures r.Some? ==> (key, r.value) in iv
  {
    if iv == [] then None
    else if iv[0].0 == key then Some(iv[0].1)
    else Lookup(iv[1..], key)
  }

  /** `data.get(key, 0)` on a decoded record. */
  function ValueOr0(iv: Interval, key: string): (r: int)
    ensures (key, r) in iv || (r == 0 && forall i :: 0 <= i < |iv| ==> iv[i].0 != key)
  {
    match Lookup(iv, key)
    case Some(v) => v
    case None => 0
  }
}

=== FILE: schedule_list.dfy ===
/** `fetchSchedules` in server/web/app.js: rebuild the schedule table, the
    `scheduleMap` keyed by `chip-pin`, and the `scheduled` marks on the panel
    buttons from the list the server returns. */
module ScheduleList {
  import opened Records
  import opened JsText
  import opened WebApp
  import opened WebForm

  /** One table row: name, light label, repeat and overdue text. The due
      column depends on the browser's locale and is not part of the model. */
  datatype Row = Row(name: string, light: string, repeat: string, overdue: string)

  function RowOf(s: ClientSchedule): (r: Row)
    ensures r.name == s.name && r.light != ""
    ensures r.repeat == "" <==> s.repeat.None? || s.repeat.value == []
    ensures r.overdue == "" <==> s.overdue.None? || s.overdue.value == []
  {
    Row(s.name, LabelFor(s.chip, s.pin), FormatInterval(s.repeat), FormatInterval(s.overdue))
  }

  /** The `scheduleMap` key `${chip}-${pin}`. */
  function Key(chip: int, pin: int): (k: string)
    ensures var n := |IntToString(chip)|;
            n < |k| && k[n] == '-' && k[..n] == IntToString(chip) && k[n + 1..] == IntToString(pin)
  {
    IntToString(chip) + "-" + IntToString(pin)
  }

  /** Both numbers can be read back from a key with `parseInt`. */
  lemma KeyReadsBack(chip: int, pin: int)
    ensures var k, n := Key(chip, pin), |IntToString(chip)|;
            ParseInt(k[..n]) == Some(chip) && ParseInt(k[n + 1..]) == Some(pin)
  {
    ParseIntToString(chip);
    ParseIntToString(pin);
  }

  /** `slice().reverse()`. */
  function Reverse<T>(xs: seq<T>): (r: seq<T>)
    ensures |r| == |xs| && forall j :: 0 <= j < |xs| ==> r[j] == xs[|xs| - 1 - j]
  {
    if xs == [] then [] else Reverse(xs[1..]) + [xs[0]]
  }

  /** The map left by assigning `scheduleMap[key] = s` for each `s` in turn. */
  function Assigned(xs: seq<ClientSchedule>): map<string, ClientSchedule> {
    if xs == [] then map[] else Assigned(xs[..|xs| - 1])[Key(xs[|xs| - 1].chip, xs[|xs| - 1].pin) := xs[|xs| - 1]]
  }

  /** The panel buttons marked `scheduled` after visiting `xs` in turn. */
  function Marked(xs: seq<ClientSchedule>): set<(int, int)> {
    if xs == [] then {}
    else
      var s := xs[|xs| - 1];
      Marked(xs[..|xs| - 1]) + if OnPanel(s.chip, s.pin) then {(s.chip, s.pin)} else {}
  }

  /** A button is marked iff its light is on the panel and has a schedule. */
  lemma {:induction false} MarkedLights(xs: seq<ClientSchedule>, chip: int, pin: int)
    ensures (chip, pin) in Marked(xs) <==>
              OnPanel(chip, pin) && exists j :: 0 <= j < |xs| && (xs[j].chip, xs[j].pin) == (chip, pin)
  {
    if xs != [] {
      var init := xs[..|xs| - 1];
      MarkedLights(init, chip, pin);
      if exists j :: 0 <= j < |init| && (init[j].chip, init[j].pin) == (chip, pin) {
        var j :| 0 <= j < |init| && (init[j].chip, init[j].pin) == (chip, pin);
        assert xs[j] == init[j];
      }
      if exists j :: 0 <= j < |xs| && (xs[j].chip, xs[j].pin) == (chip, pin) {
        var j :| 0 <= j < |xs| && (xs[j].chip, xs[j].pin) == (chip, pin);
        if j < |init| {
          assert init[j] == xs[j];
        }
      }
    }
  }

  /** Walking the reversed list marks the same buttons. */
  lemma MarkedReverse(xs: seq<ClientSchedule>, chip: int, pin: int)
    ensures (chip, pin) in Marked(Reverse(xs)) <==>
              OnPanel(chip, pin) && exists j :: 0 <= j < |xs| && (xs[j].chip, xs[j].pin) == (chip, pin)
  {
    var rev := Reverse(xs);
    MarkedLights(rev, chip, pin);
    if exists j :: 0 <= j < |xs| && (xs[j].chip, xs[j].pin) == (chip, pin) {
      var j :| 0 <= j < |xs| && (xs[j].chip, xs[j].pin) == (chip, pin);
      assert rev[|xs| - 1 - j] == xs[j];
    }
    if exists j :: 0 <= j < |rev| && (rev[j].chip, rev[j].pin) == (chip, pin) {
      var j :| 0 <= j < |rev| && (rev[j].chip, rev[j].pin) == (chip, pin);
      assert xs[|xs| - 1 - j] == rev[j];
    }
  }

  /** The table rows after appending one for each of `xs` in turn. */
  function RowsOf(xs: seq<ClientSchedule>): (rows: seq<Row>)
    ensures |rows| == |xs|
  {
    if xs == [] then [] else RowsOf(xs[..|xs| - 1]) + [RowOf(xs[|xs| - 1])]
  }

  lemma {:induction false} RowsOfAt(xs: seq<ClientSchedule>, j: nat)
    requires j < |xs|
    ensures RowsOf(xs)[j] == RowOf(xs[j])
  {
    if j < |xs| - 1 {
      RowsOfAt(xs[..|xs| - 1], j);
    }
  }

  /** Row `j` of the table shows the `j`-th schedule from the end of the
      server's list. */
  lemma RowsReversed(xs: seq<ClientSchedule>, j: nat)
    requires j < |xs|
    ensures RowsOf(Reverse(xs))[j] == RowOf(xs[|xs| - 1 - j])
  {
    RowsOfAt(Reverse(xs), j);
  }

  /** The position of the first schedule of the light, if any. */
  function FirstFor(xs: seq<ClientSchedule>, chip: int, pin: int): (r: Option<nat>)
    ensures r.None? <==> forall j :: 0 <= j < |xs| ==> (xs[j].chip, xs[j].pin) != (chip, pin)
    ensures r.Some? ==> r.value < |xs| && (xs[r.value].chip, xs[r.value].pin) == (chip, pin)
    ensures r.Some? ==> forall j :: 0 <= j < r.value ==> (xs[j].chip, xs[j].pin) != (chip, pin)
  {
    if xs == [] then None
    else if (xs[0].chip, xs[0].pin) == (chip, pin) then Some(0)
    else
      var r := FirstFor(xs[1..], chip, pin);
      if r.None? then None else Some(r.value + 1)
  }

  lemma NoDashInDigits(s: string, j: int)
    requires forall k :: 0 <= k < |s| ==> IsDigit(s[k])
    requires 0 <= j < |s|
    ensures s[j] != '-'
  {
  }

  /** The first `-` after position 0 of a key ends its chip part. */
  lemma DashEndsChip(chip: int, pin: int, j: int)
    requires 1 <= j < |IntToString(chip)|
    ensures Key(chip, pin)[j] != '-' && Key(chip, pin)[|IntToString(chip)|] == '-'
  {
    var c := IntToString(chip);
    assert Key(chip, pin)[j] == c[j];
    if chip >= 0 {
      NoDashInDigits(c, j);
    }
  }

  /** Different lights never share a `scheduleMap` key. */
  lemma KeyInjective(c1: int, p1: int, c2: int, p2: int)
    ensures Key(c1, p1) == Key(c2, p2) <==> (c1, p1) == (c2, p2)
  {
    var a, b := IntToString(c1), IntToString(c2);
    if Key(c1, p1) == Key(c2, p2) {
      var k := Key(c1, p1);
      if |a| < |b| {
        DashEndsChip(c2, p2, |a|);
        assert false;
      } else if |b| < |a| {
        DashEndsChip(c1, p1, |b|);
        assert false;
      }
      assert a == k[..|a|] == b;
      assert IntToString(p1) == k[|a| + 1..] == IntToString(p2);
      IntToStringInjective(c1, c2);
      IntToStringInjective(p1, p2);
    }
  }

  /** Filling the map from the reversed list: a light has an entry iff the
      server listed a schedule for it, and the entry is the first schedule
      of that light in the server's order, which is written last. */
  lemma AssignedReverse(xs: seq<ClientSchedule>, chip: int, pin: int)
    ensures Key(chip, pin) in Assigned(Reverse(xs)) <==> FirstFor(xs, chip, pin).Some?
    ensures FirstFor(xs, chip, pin).Some? ==>
              Assigned(Reverse(xs))[Key(chip, pin)] == xs[FirstFor(xs, chip, pin).value]
  {
    AssignedReverseIn(xs, chip, pin);
    if FirstFor(xs, chip, pin).Some? {
      AssignedReverseAt(xs, chip, pin);
    }
  }

  lemma {:induction false} AssignedReverseIn(xs: seq<ClientSchedule>, chip: int, pin: int)
    ensures Key(chip, pin) in Assigned(Reverse(xs)) <==> FirstFor(xs, chip, pin).Some?
  {
    if xs != [] {
      AssignedReverseStep(xs);
      if (xs[0].chip, xs[0].pin) != (chip, pin) {
        KeyInjective(chip, pin, xs[0].chip, xs[0].pin);
        AssignedReverseIn(xs[1..], chip, pin);
      }
    }
  }

  lemma {:induction false} AssignedReverseAt(xs: seq<ClientSchedule>, chip: int, pin: int)
    requires FirstFor(xs, chip, pin).Some?
    ensures Key(chip, pin) in Assigned(Reverse(xs))
    ensures Assigned(Reverse(xs))[Key(chip, pin)] == xs[FirstFor(xs, chip, pin).value]
  {
    if (xs[0].chip, xs[0].pin) == (chip, pin) {
      AssignedReverseHead(xs);
    } else {
      KeyInjective(chip, pin, xs[0].chip, xs[0].pin);
      AssignedReverseAt(xs[1..], chip, pin);
      AssignedReverseTail(xs, Key(chip, pin));
      FirstForStep(xs, chip, pin);
    }
  }

  /** Past a first schedule of another light, the first match is one
      further along than in the rest of the list. */
  lemma FirstForStep(xs: seq<ClientSchedule>, chip: int, pin: int)
    requires xs != [] && (xs[0].chip, xs[0].pin) != (chip, pin) && FirstFor(xs[1..], chip, pin).Some?
    ensures FirstFor(xs, chip, pin).Some?
    ensures xs[FirstFor(xs, chip, pin).value] == xs[1..][FirstFor(xs[1..], chip, pin).value]
  {
  }

  /** The first schedule of the list wins its key in the mapping. */
  lemma AssignedReverseHead(xs: seq<ClientSchedule>)
    requires xs != []
    ensures var k := Key(xs[0].chip, xs[0].pin);
            k in Assigned(Reverse(xs)) && Assigned(Reverse(xs))[k] == xs[0]
  {
    AssignedReverseStep(xs);
  }

  /** Any other key keeps the entry the rest of the list gave it. */
  lemma AssignedReverseTail(xs: seq<ClientSchedule>, k: string)
    requires xs != [] && k != Key(xs[0].chip, xs[0].pin) && k in Assigned(Reverse(xs[1..]))
    ensures k in Assigned(Reverse(xs)) && Assigned(Reverse(xs))[k] == Assigned(Reverse(xs[1..]))[k]
  {
    AssignedReverseStep(xs);
  }

  lemma AssignedReverseStep(xs: seq<ClientSchedule>)
    requires xs != []
    ensures Assigned(Reverse(xs)) == Assigned(Reverse(xs[1..]))[Key(xs[0].chip, xs[0].pin) := xs[0]]
  {
    var rev := Reverse(xs);
    assert rev[..|rev| - 1] == Reverse(xs[1..]);
  }

  /** Every key of the rebuilt map is the key of some schedule. */
  lemma {:induction false} AssignedKeys(xs: seq<ClientSchedule>, key: string)
    requires key in Assigned(xs)
    ensures exists j :: 0 <= j < |xs| && Key(xs[j].chip, xs[j].pin) == key
  {
    var last := xs[|xs| - 1];
    if key != Key(last.chip, last.pin) {
      AssignedKeys(xs[..|xs| - 1], key);
      var j :| 0 <= j < |xs| - 1 && Key(xs[..|xs| - 1][j].chip, xs[..|xs| - 1][j].pin) == key;
      assert xs[j] == xs[..|xs| - 1][j];
    }
  }

  /** Visiting one more schedule. */
  lemma VisitNext(xs: seq<ClientSchedule>, i: nat)
    requires i < |xs|
    ensures Assigned(xs[..i + 1]) == Assigned(xs[..i])[Key(xs[i].chip, xs[i].pin) := xs[i]]
    ensures RowsOf(xs[..i + 1]) == RowsOf(xs[..i]) + [RowOf(xs[i])]
    ensures Marked(xs[..i + 1]) ==
              Marked(xs[..i]) + if OnPanel(xs[i].chip, xs[i].pin) then {(xs[i].chip, xs[i].pin)} else {}
  {
    assert xs[..i + 1][..i] == xs[..i];
  }

  class ScheduleTableView {
    var entries: map<string, ClientSchedule>
    var rows: seq<Row>
    var scheduled: set<(int, int)>

    constructor ()
      ensures entries == map[] && rows == [] && scheduled == {}
    {
      entries, rows, scheduled := map[], [], {};
    }

    /** The body of the `forEach` in `fetchSchedules`, for one schedule. */
    method Visit(s: ClientSchedule)
      modifies this
      ensures entries == old(entries)[Key(s.chip, s.pin) := s]
      ensures rows == old(rows) + [RowOf(s)]
      ensures scheduled == old(scheduled) + if OnPanel(s.chip, s.pin) then {(s.chip, s.pin)} else {}
    {
      entries := entries[Key(s.chip, s.pin) := s];
      rows := rows + [RowOf(s)];
      if OnPanel(s.chip, s.pin) {
        scheduled := scheduled + {(s.chip, s.pin)};
      }
    }

    /** `fetchSchedules` once the server's list has arrived: empty the
        table, the map and the marks, then walk the list backwards. */
    method Refresh(list: seq<ClientSchedule>)
      modifies this
      ensures entries == Assigned(Reverse(list))
      ensures rows == RowsOf(Reverse(list))
      ensures scheduled == Marked(Reverse(list))
    {
      rows := [];
      entries := map[];
      scheduled := {};
      var rev := Reverse(list);
      var i := 0;
      while i < |rev|
        invariant 0 <= i <= |rev|
        invariant entries == Assigned(rev[..i])
        invariant scheduled == Marked(rev[..i])
        invariant rows == RowsOf(rev[..i])
      {
        VisitNext(rev, i);
        Visit(rev[i]);
        i := i + 1;
      }
      assert rev[..i] == rev;
    }
  }
}

=== FILE: schedule_table.dfy ===
/** The schedule records of server/state_server.py and the pure meaning of
    each operation on the table: upsert, delete, reset and one scheduler tick. */
module ScheduleTable {
  import opened Records
  import opened Calendar
  import opened Intervals

  const NumChips := 3
  const NumPins := 6

  /** One entry of `SCHEDULES`. `overdueStart` and `lastFlash` are the keys
      the scheduler adds once the schedule has fired. */
  datatype Schedule = Schedule(
    chip: int, pin: int, name: string, due: DateTime,
    repeat: Interval, overdue: Interval,
    active: bool, flashing: bool,
    overdueStart: Option<DateTime>, lastFlash: Option<int>)

  /** What every stored schedule satisfies: a real date, and flashing only
      once active. */
  predicate WellFormedSchedule(s: Schedule)
  {
    && Valid(s.due)
    && (s.flashing ==> s.active)
    && (s.overdueStart.Some? ==> Valid(s.overdueStart.value))
  }

  predicate WellFormed(ss: seq<Schedule>)
  {
    forall i :: 0 <= i < |ss| ==> WellFormedSchedule(ss[i])
  }

  predicate HasKey(s: Schedule, chip: int, pin: int)
  {
    s.chip == chip && s.pin == pin
  }

  /** How many schedules are stored for one light. */
  function Count(ss: seq<Schedule>, chip: int, pin: int): (n: nat)
    ensures n <= |ss|
    ensures n == 0 <==> forall i :: 0 <= i < |ss| ==> !HasKey(ss[i], chip, pin)
  {
    if ss == [] then 0
    else (if HasKey(ss[0], chip, pin) then 1 else 0) + Count(ss[1..], chip, pin)
  }

  /** The table with every schedule of one light dropped, the others in order. */
  function Without(ss: seq<Schedule>, chip: int, pin: int): (r: seq<Schedule>)
    ensures |r| == |ss| - Count(ss, chip, pin)
    ensures forall i :: 0 <= i < |r| ==> !HasKey(r[i], chip, pin)
  {
    if ss == [] then []
    else (if HasKey(ss[0], chip, pin) then [] else [ss[0]]) + Without(ss[1..], chip, pin)
  }

  lemma {:induction false} CountAppend(a: seq<Schedule>, b: seq<Schedule>, chip: int, pin: int)
    ensures Count(a + b, chip, pin) == Count(a, chip, pin) + Count(b, chip, pin)
  {
    if a != [] {
      assert (a + b)[0] == a[0] && (a + b)[1..] == a[1..] + b;
      CountAppend(a[1..], b, chip, pin);
    } else {
      assert a + b == b;
    }
  }

  lemma AppendAssoc(h: seq<Schedule>, r: seq<Schedule>, t: seq<Schedule>)
    ensures h + (r + t) == (h + r) + t
  {
  }

  /** Peeling the first entry off a non-empty table. */
  lemma WithoutFirst(a: seq<Schedule>, chip: int, pin: int)
    requires a != []
    ensures Without(a, chip, pin) == Without([a[0]], chip, pin) + Without(a[1..], chip, pin)
  {
    assert [a[0]][1..] == [];
  }

  /** The same, for a non-empty table followed by more entries. */
  lemma WithoutFirstOf(a: seq<Schedule>, b: seq<Schedule>, chip: int, pin: int)
    requires a != []
    ensures Without(a + b, chip, pin) == Without([a[0]], chip, pin) + Without(a[1..] + b, chip, pin)
  {
    WithoutFirst(a + b, chip, pin);
    assert (a + b)[0] == a[0] && (a + b)[1..] == a[1..] + b;
  }

  lemma {:induction false} WithoutAppend(a: seq<Schedule>, b: seq<Schedule>, chip: int, pin: int)
    ensures Without(a + b, chip, pin) == Without(a, chip, pin) + Without(b, chip, pin)
    ensures Count(a + b, chip, pin) == Count(a, chip, pin) + Count(b, chip, pin)
  {
    CountAppend(a, b, chip, pin);
    if a == [] {
      assert a + b == b;
    } else {
      var h := Without([a[0]], chip, pin);
      calc {
        Without(a + b, chip, pin);
      == { WithoutFirstOf(a, b, chip, pin); }
        h + Without(a[1..] + b, chip, pin);
      == { WithoutAppend(a[1..], b, chip, pin); }
        h + (Without(a[1..], chip, pin) + Without(b, chip, pin));
      == { AppendAssoc(h, Without(a[1..], chip, pin), Without(b, chip, pin)); }
        (h + Without(a[1..], chip, pin)) + Without(b, chip, pin);
      == { WithoutFirst(a, chip, pin); }
        Without(a, chip, pin) + Without(b, chip, pin);
      }
    }
  }

  lemma {:induction false} WithoutWellFormed(ss: seq<Schedule>, chip: int, pin: int)
    requires WellFormed(ss)
    ensures WellFormed(Without(ss, chip, pin))
  {
    if ss != [] {
      WithoutWellFormed(ss[1..], chip, pin);
    }
  }

  /** Deleting a light that has no schedule changes nothing. */
  lemma {:induction false} WithoutAbsent(ss: seq<Schedule>, chip: int, pin: int)
    requires Count(ss, chip, pin) == 0
    ensures Without(ss, chip, pin) == ss
  {
    if ss != [] {
      WithoutAbsent(ss[1..], chip, pin);
    }
  }

  /** `list.remove(x)`: drop the first element equal to `x`. */
  function RemoveFirst(ss: seq<Schedule>, x: Schedule): (r: seq<Schedule>)
    ensures x in ss ==> |r| == |ss| - 1
  {
    if ss == [] then []
    else if ss[0] == x then ss[1..]
    else [ss[0]] + RemoveFirst(ss[1..], x)
  }

  /** Removing `x` finds it right after a prefix that does not hold it. */
  lemma {:induction false} RemoveFirstAfter(p: seq<Schedule>, x: Schedule, b: seq<Schedule>)
    requires x !in p
    ensures RemoveFirst(p + [x] + b, x) == p + b
  {
    if p != [] {
      assert (p + [x] + b)[1..] == p[1..] + [x] + b;
      RemoveFirstAfter(p[1..], x, b);
    }
  }

  /** One turn of the removal loop over a copy of the table: after the
      first `i` entries of the copy were handled, handling entry `i` (removing
      it when it belongs to the light) extends the handled prefix by one. */
  lemma RemoveLoopStep(snapshot: seq<Schedule>, i: nat, chip: int, pin: int)
    requires i < |snapshot|
    ensures var s := snapshot[i];
            var before := Without(snapshot[..i], chip, pin) + snapshot[i..];
            (if HasKey(s, chip, pin) then RemoveFirst(before, s) else before)
              == Without(snapshot[..i + 1], chip, pin) + snapshot[i + 1..]
  {
    var s := snapshot[i];
    assert snapshot[..i + 1] == snapshot[..i] + [s];
    assert snapshot[i..] == [s] + snapshot[i + 1..];
    WithoutAppend(snapshot[..i], [s], chip, pin);
    HandleOne(Without(snapshot[..i], chip, pin), s, snapshot[i + 1..], chip, pin);
  }

  /** The loop step as the removal loop sees it: `cur` is the table after
      the first `i` entries of the copy were handled. */
  lemma RemoveTurn(cur: seq<Schedule>, snapshot: seq<Schedule>, i: nat, chip: int, pin: int)
    requires i < |snapshot| && cur == Without(snapshot[..i], chip, pin) + snapshot[i..]
    ensures (if HasKey(snapshot[i], chip, pin) then RemoveFirst(cur, snapshot[i]) else cur)
              == Without(snapshot[..i + 1], chip, pin) + snapshot[i + 1..]
  {
    RemoveLoopStep(snapshot, i, chip, pin);
  }

  /** Handling one entry after a prefix that holds no schedule of the light. */
  lemma HandleOne(done: seq<Schedule>, s: Schedule, rest: seq<Schedule>, chip: int, pin: int)
    requires forall j :: 0 <= j < |done| ==> !HasKey(done[j], chip, pin)
    ensures (if HasKey(s, chip, pin) then RemoveFirst(done + ([s] + rest), s) else done + ([s] + rest))
              == done + Without([s], chip, pin) + rest
  {
    assert done + ([s] + rest) == done + [s] + rest;
    if HasKey(s, chip, pin) {
      RemoveFirstAfter(done, s, rest);
      assert Without([s], chip, pin) == [];
    } else {
      assert Without([s], chip, pin) == [s];
    }
  }

  /** The index of the first schedule of one light, if any. */
  function FirstMatch(ss: seq<Schedule>, chip: int, pin: int): (r: Option<nat>)
    ensures r.None? <==> Count(ss, chip, pin) == 0
    ensures r.Some? ==> r.value < |ss| && HasKey(ss[r.value], chip, pin)
    ensures r.Some? ==> forall j :: 0 <= j < r.value ==> !HasKey(ss[j], chip, pin)
  {
    if ss == [] then None
    else if HasKey(ss[0], chip, pin) then Some(0)
    else match FirstMatch(ss[1..], chip, pin)
      case None => None
      case Some(i) => Some(i + 1)
  }

  /** The schedule `POST /schedule` stores: not yet fired. */
  function NewSchedule(chip: int, pin: int, name: string, due: DateTime,
                       repeat: Interval, overdue: Interval): (s: Schedule)
    ensures HasKey(s, chip, pin) && !s.active && !s.flashing
    ensures Valid(due) ==> WellFormedSchedule(s)
  {
    Schedule(chip, pin, name, due, repeat, overdue, false, false, None, None)
  }

  /** `POST /schedule`: drop the light's schedules, then append the new one.
      Exactly one schedule of that light remains, at the end, and the rest of
      the table is what it was, in the same order. */
  function Upsert(ss: seq<Schedule>, x: Schedule): (r: seq<Schedule>)
    ensures Count(r, x.chip, x.pin) == 1
    ensures |r| > 0 && r[|r| - 1] == x
    ensures Without(r, x.chip, x.pin) == Without(ss, x.chip, x.pin)
  {
    var kept := Without(ss, x.chip, x.pin);
    WithoutAppend(kept, [x], x.chip, x.pin);
    WithoutAbsent(kept, x.chip, x.pin);
    kept + [x]
  }

  /** Submitting the same schedule twice leaves the table as submitting it once. */
  lemma UpsertIdempotent(ss: seq<Schedule>, x: Schedule)
    ensures Upsert(Upsert(ss, x), x) == Upsert(ss, x)
  {
  }

  /** Deleting right after an upsert gives the table without that light. */
  lemma DeleteAfterUpsert(ss: seq<Schedule>, x: Schedule)
    ensures Without(Upsert(ss, x), x.chip, x.pin) == Without(ss, x.chip, x.pin)
  {
  }

  /** After a delete no schedule of that light remains. */
  lemma DeleteRemovesAll(ss: seq<Schedule>, chip: int, pin: int)
    ensures Count(Without(ss, chip, pin), chip, pin) == 0
    ensures Count(ss, chip, pin) == 0 ==> Without(ss, chip, pin) == ss
  {
    if Count(ss, chip, pin) == 0 {
      WithoutAbsent(ss, chip, pin);
    }
  }

  /** `handle_reset` at `now` can finish: the light's first schedule, when
      it repeats, either lands after `now` in one step or moves its due date
      strictly forward at every step. */
  predicate ResetTerminates(ss: seq<Schedule>, chip: int, pin: int, now: DateTime)
    requires WellFormed(ss)
  {
    match FirstMatch(ss, chip, pin)
    case None => true
    case Some(i) => ss[i].repeat == [] || Rolls(ss[i].due, ss[i].repeat, now)
  }

  /** The repeating schedule after the light was switched off: idle again,
      and due at the first repetition after `now`. */
  function Rearmed(s: Schedule, now: DateTime): (r: Schedule)
    requires WellFormedSchedule(s) && Valid(now) && Rolls(s.due, s.repeat, now)
    ensures WellFormedSchedule(r) && !r.active && !r.flashing && Before(now, r.due)
    ensures r.(active := s.active, flashing := s.flashing, due := s.due) == s
  {
    s.(active := false, flashing := false, due := NextDueAfter(s.due, s.repeat, now))
  }

  /** `handle_reset`: only the light's first schedule is touched. A one-shot
      schedule is removed; a repeating one is re-armed. */
  function Reset(ss: seq<Schedule>, chip: int, pin: int, now: DateTime): (r: seq<Schedule>)
    requires WellFormed(ss) && Valid(now) && ResetTerminates(ss, chip, pin, now)
    ensures WellFormed(r)
    ensures Count(ss, chip, pin) == 0 ==> r == ss
  {
    match FirstMatch(ss, chip, pin)
    case None => ss
    case Some(i) =>
      if ss[i].repeat == [] then ss[..i] + ss[i + 1..]
      else ss[i := Rearmed(ss[i], now)]
  }

  /** A left-to-right search that stops at index `i` finds the first match. */
  lemma FirstMatchAt(ss: seq<Schedule>, i: nat, chip: int, pin: int)
    requires i <= |ss| && forall j :: 0 <= j < i ==> !HasKey(ss[j], chip, pin)
    requires i < |ss| ==> HasKey(ss[i], chip, pin)
    ensures FirstMatch(ss, chip, pin) == if i == |ss| then None else Some(i)
  {
    if i < |ss| {
      CountSplit(ss, i, chip, pin);
    }
  }

  /** Resetting a one-shot schedule removes the first entry equal to it. */
  lemma ResetOneShotAt(ss: seq<Schedule>, i: nat, chip: int, pin: int, now: DateTime)
    requires WellFormed(ss) && Valid(now) && ResetTerminates(ss, chip, pin, now)
    requires FirstMatch(ss, chip, pin) == Some(i) && ss[i].repeat == []
    ensures Reset(ss, chip, pin, now) == RemoveFirst(ss, ss[i])
  {
    assert ss == ss[..i] + [ss[i]] + ss[i + 1..];
    forall j | 0 <= j < i ensures ss[..i][j] != ss[i] {
      assert !HasKey(ss[j], chip, pin);
    }
    RemoveFirstAfter(ss[..i], ss[i], ss[i + 1..]);
  }

  lemma CountSplit(ss: seq<Schedule>, i: nat, chip: int, pin: int)
    requires i < |ss|
    ensures Count(ss, chip, pin) == Count(ss[..i], chip, pin) + (if HasKey(ss[i], chip, pin) then 1 else 0)
                                    + Count(ss[i + 1..], chip, pin)
    ensures Without(ss, chip, pin) == Without(ss[..i], chip, pin) + Without([ss[i]], chip, pin)
                                      + Without(ss[i + 1..], chip, pin)
  {
    assert ss == ss[..i] + [ss[i]] + ss[i + 1..];
    WithoutAppend(ss[..i] + [ss[i]], ss[i + 1..], chip, pin);
    WithoutAppend(ss[..i], [ss[i]], chip, pin);
  }

  /** A reset leaves the schedules of other lights untouched and in order. */
  lemma ResetKeepsOthers(ss: seq<Schedule>, chip: int, pin: int, now: DateTime)
    requires WellFormed(ss) && Valid(now) && ResetTerminates(ss, chip, pin, now)
    ensures Without(Reset(ss, chip, pin, now), chip, pin) == Without(ss, chip, pin)
  {
    if Count(ss, chip, pin) > 0 {
      var i := FirstMatch(ss, chip, pin).value;
      if ss[i].repeat == [] {
        ResetOneShot(ss, chip, pin, now);
      } else {
        assert Reset(ss, chip, pin, now) == ss[i := Rearmed(ss[i], now)];
        ResetRepeatingKeepsOthers(ss, i, chip, pin, now);
      }
    }
  }

  lemma ResetRepeatingKeepsOthers(ss: seq<Schedule>, i: nat, chip: int, pin: int, now: DateTime)
    requires WellFormed(ss) && Valid(now) && i < |ss| && HasKey(ss[i], chip, pin)
    requires ss[i].repeat != [] && Rolls(ss[i].due, ss[i].repeat, now)
    ensures Without(ss[i := Rearmed(ss[i], now)], chip, pin) == Without(ss, chip, pin)
  {
    var r := ss[i := Rearmed(ss[i], now)];
    assert r[..i] == ss[..i] && r[i + 1..] == ss[i + 1..];
    CountSplit(ss, i, chip, pin);
    CountSplit(r, i, chip, pin);
    assert Without([ss[i]], chip, pin) == [] && Without([r[i]], chip, pin) == [];
  }

  /** Switching off a light with a one-shot schedule removes that schedule. */
  lemma ResetOneShot(ss: seq<Schedule>, chip: int, pin: int, now: DateTime)
    requires WellFormed(ss) && Valid(now) && ResetTerminates(ss, chip, pin, now)
    requires Count(ss, chip, pin) > 0 && ss[FirstMatch(ss, chip, pin).value].repeat == []
    ensures Count(Reset(ss, chip, pin, now), chip, pin) == Count(ss, chip, pin) - 1
    ensures |Reset(ss, chip, pin, now)| == |ss| - 1
    ensures Without(Reset(ss, chip, pin, now), chip, pin) == Without(ss, chip, pin)
  {
    var i := FirstMatch(ss, chip, pin).value;
    assert Reset(ss, chip, pin, now) == ss[..i] + ss[i + 1..];
    RemoveAtEffect(ss, i, chip, pin);
  }

  lemma RemoveAtWellFormed(ss: seq<Schedule>, i: nat)
    requires WellFormed(ss) && i < |ss|
    ensures WellFormed(ss[..i] + ss[i + 1..])
  {
    var r := ss[..i] + ss[i + 1..];
    forall j | 0 <= j < |r| ensures WellFormedSchedule(r[j]) {
      assert r[j] == if j < i then ss[j] else ss[j + 1];
    }
  }

  lemma RemoveAtEffect(ss: seq<Schedule>, i: nat, chip: int, pin: int)
    requires i < |ss| && HasKey(ss[i], chip, pin)
    ensures Count(ss[..i] + ss[i + 1..], chip, pin) == Count(ss, chip, pin) - 1
    ensures Without(ss[..i] + ss[i + 1..], chip, pin) == Without(ss, chip, pin)
  {
    var a, b := ss[..i], ss[i + 1..];
    assert ss == a + ([ss[i]] + b);
    WithoutAppend(a, [ss[i]] + b, chip, pin);
    DropMatchingHead(ss[i], b, chip, pin);
    WithoutAppend(a, b, chip, pin);
  }

  lemma DropMatchingHead(x: Schedule, b: seq<Schedule>, chip: int, pin: int)
    requires HasKey(x, chip, pin)
    ensures Without([x] + b, chip, pin) == Without(b, chip, pin)
    ensures Count([x] + b, chip, pin) == Count(b, chip, pin) + 1
  {
    assert ([x] + b)[1..] == b;
  }

  /** Switching off a light with a repeating schedule keeps it in place,
      idle, and due after `now`. */
  lemma ResetRepeating(ss: seq<Schedule>, chip: int, pin: int, now: DateTime)
    requires WellFormed(ss) && Valid(now) && ResetTerminates(ss, chip, pin, now)
    requires Count(ss, chip, pin) > 0 && ss[FirstMatch(ss, chip, pin).value].repeat != []
    ensures var i := FirstMatch(ss, chip, pin).value;
            var r := Reset(ss, chip, pin, now);
            && |r| == |ss| && Count(r, chip, pin) == Count(ss, chip, pin)
            && !r[i].active && !r[i].flashing && Before(now, r[i].due)
            && r[i].due == NextDueAfter(ss[i].due, ss[i].repeat, now)
    ensures var i := FirstMatch(ss, chip, pin).value;
            var r := Reset(ss, chip, pin, now);
            && r == ss[i := r[i]]
            && r[i].(active := ss[i].active, flashing := ss[i].flashing, due := ss[i].due) == ss[i]
  {
    var i := FirstMatch(ss, chip, pin).value;
    var r := Reset(ss, chip, pin, now);
    assert r == ss[i := Rearmed(ss[i], now)];
    assert r[..i] == ss[..i] && r[i + 1..] == ss[i + 1..];
    CountSplit(ss, i, chip, pin);
    CountSplit(r, i, chip, pin);
  }

  // ---- the scheduler tick -------------------------------------------------

  /** `STATES`: one row per chip, one cell per pin. */
  type Grid = seq<seq<int>>

  predicate WellShaped(g: Grid)
  {
    |g| == NumChips && forall c :: 0 <= c < |g| ==> |g[c]| == NumPins
  }

  function SetCell(g: Grid, c: nat, p: nat, v: int): (r: Grid)
    requires WellShaped(g) && c < NumChips && p < NumPins
    ensures WellShaped(r) && r[c][p] == v
    ensures forall c', p' :: 0 <= c' < NumChips && 0 <= p' < NumPins && (c', p') != (c, p) ==> r[c'][p'] == g[c'][p']
  {
    g[c := g[c][p := v]]
  }

  /** Python list indexing: negative indices count from the end; anything
      else outside the list raises IndexError (None). */
  function PyIndex(i: int, len: nat): (r: Option<nat>)
    ensures r.Some? <==> -(len as int) <= i < len
    ensures r.Some? ==> r.value < len && (r.value == i || r.value == i + len)
  {
    if 0 <= i < len then Some(i) else if -(len as int) <= i < 0 then Some(i + len) else None
  }

  /** The cell `STATES[chip][pin]` names, if indexing succeeds. */
  function Cell(chip: int, pin: int): (r: Option<(nat, nat)>)
    ensures r.Some? <==> -NumChips <= chip < NumChips && -NumPins <= pin < NumPins
    ensures r.Some? ==> r.value.0 < NumChips && r.value.1 < NumPins
    ensures InRange(chip, pin) ==> r == Some((chip, pin))
  {
    match (PyIndex(chip, NumChips), PyIndex(pin, NumPins))
    case (Some(c), Some(p)) => Some((c, p))
    case _ => None
  }

  /** The range check of `POST /state`: exactly the indices Python does
      not wrap around. */
  predicate InRange(chip: int, pin: int)
    ensures InRange(chip, pin) <==> PyIndex(chip, NumChips) == Some(chip) && PyIndex(pin, NumPins) == Some(pin)
  {
    0 <= chip < NumChips && 0 <= pin < NumPins
  }

  /** The result of processing one schedule; `ok` is false when indexing
      `STATES` raised and the scheduler thread died. */
  datatype Outcome = Outcome(s: Schedule, grid: Grid, ok: bool)

  /** The new state a flash writes: off when the light is on, else on. */
  function Toggled(v: int): (r: int)
    ensures r == 0 || r == 1
    ensures r == 1 <==> v == 0
  {
    if v != 0 then 0 else 1
  }

  /** server/state_server.py:264-267: a due, idle schedule fires, switching its light on. */
  function Activate(s: Schedule, g: Grid, now: DateTime): (o: Outcome)
    requires WellShaped(g) && Valid(now)
    ensures WellShaped(o.grid)
  {
    if !s.active && AtOrBefore(s.due, now) then
      var fired := s.(active := true);
      match Cell(s.chip, s.pin)
      case None => Outcome(fired, g, false)
      case Some((c, p)) =>
        Outcome(fired.(overdueStart := Some(AddSeconds(now, ParseTimedelta(Some(s.overdue))))),
                SetCell(g, c, p, 1), true)
    else Outcome(s, g, true)
  }

  /** server/state_server.py:269-270: an active schedule that is not flashing keeps its light on. */
  function Repair(s: Schedule, g: Grid): (o: Outcome)
    requires WellShaped(g)
    ensures WellShaped(o.grid) && o.s == s
    ensures s.flashing ==> o.ok && o.grid == g
    ensures !s.flashing ==> (o.ok <==> Cell(s.chip, s.pin).Some?)
    ensures !s.flashing && Cell(s.chip, s.pin).Some? ==>
              var cp := Cell(s.chip, s.pin).value;
              o.grid == if g[cp.0][cp.1] == 0 then SetCell(g, cp.0, cp.1, 1) else g
  {
    if s.flashing then Outcome(s, g, true)
    else match Cell(s.chip, s.pin)
      case None => Outcome(s, g, false)
      case Some((c, p)) => Outcome(s, if g[c][p] == 0 then SetCell(g, c, p, 1) else g, true)
  }

  /** server/state_server.py:271-274: once the overdue time has come, start flashing. */
  function StartFlashing(s: Schedule, now: DateTime, sec: int): (r: Schedule)
    ensures r.flashing <==> s.flashing || (s.overdueStart.Some? && AtOrBefore(s.overdueStart.value, now))
    ensures r.lastFlash != s.lastFlash ==> !s.flashing && r.lastFlash == Some(sec)
    ensures r.(flashing := s.flashing, lastFlash := s.lastFlash) == s
  {
    if s.overdueStart.Some? && AtOrBefore(s.overdueStart.value, now) && !s.flashing
    then s.(flashing := true, lastFlash := Some(sec))
    else s
  }

  /** server/state_server.py:275-280: a flashing schedule toggles its light when the second
      has changed since the last toggle. */
  function Flash(s: Schedule, g: Grid, sec: int): (o: Outcome)
    requires WellShaped(g)
    ensures WellShaped(o.grid)
  {
    if s.flashing && s.lastFlash != Some(sec) then
      var s1 := s.(lastFlash := Some(sec));
      match Cell(s.chip, s.pin)
      case None => Outcome(s1, g, false)
      case Some((c, p)) => Outcome(s1, SetCell(g, c, p, Toggled(g[c][p])), true)
    else Outcome(s, g, true)
  }

  /** One schedule's turn in one iteration of `schedule_loop`; `now` is the
      datetime and `sec` the whole-second clock read during that iteration. */
  function Step(s: Schedule, g: Grid, now: DateTime, sec: int): (o: Outcome)
    requires WellShaped(g) && Valid(now) && WellFormedSchedule(s)
    ensures WellShaped(o.grid) && WellFormedSchedule(o.s)
    ensures o.s.(active := s.active, flashing := s.flashing, overdueStart := s.overdueStart, lastFlash := s.lastFlash) == s
    ensures (s.active ==> o.s.active) && (s.flashing ==> o.s.flashing)
  {
    var a := Activate(s, g, now);
    if !a.ok || !a.s.active then a
    else
      var b := Repair(a.s, a.grid);
      if !b.ok then b
      else Flash(StartFlashing(b.s, now, sec), b.grid, sec)
  }

  /** A schedule of a light on the grid never crashes the scheduler. */
  lemma StepInRangeIsOk(s: Schedule, g: Grid, now: DateTime, sec: int)
    requires WellShaped(g) && Valid(now) && WellFormedSchedule(s) && InRange(s.chip, s.pin)
    ensures Step(s, g, now, sec).ok
    ensures Cell(s.chip, s.pin) == Some((s.chip as nat, s.pin as nat))
  {
  }

  /** Python's negative indices reach the grid too: chip -1 is chip 2. */
  lemma NegativeIndexWraps()
    ensures Cell(-1, -6) == Some((2, 0))
    ensures Cell(3, 0) == None && Cell(0, -7) == None
  {
  }

  /** Every step changes at most the one cell its schedule names. */
  lemma StepFrame(s: Schedule, g: Grid, now: DateTime, sec: int)
    requires WellShaped(g) && Valid(now) && WellFormedSchedule(s)
    ensures Cell(s.chip, s.pin).None? ==> Step(s, g, now, sec).grid == g
    ensures Cell(s.chip, s.pin).Some? ==>
              var cp := Cell(s.chip, s.pin).value;
              forall c, p :: 0 <= c < NumChips && 0 <= p < NumPins && (c, p) != cp ==>
                Step(s, g, now, sec).grid[c][p] == g[c][p]
  {
  }

  /** A schedule that is not yet due is left as it is. */
  lemma StepNotDue(s: Schedule, g: Grid, now: DateTime, sec: int)
    requires WellShaped(g) && Valid(now) && WellFormedSchedule(s)
    requires !s.active && Before(now, s.due)
    ensures Step(s, g, now, sec) == Outcome(s, g, true)
  {
  }

  /** A due schedule fires: its light is switched on, and the overdue time is
      `now` plus the overdue interval. With no positive overdue interval it
      starts flashing in the same tick, without toggling yet. */
  lemma StepActivates(s: Schedule, g: Grid, now: DateTime, sec: int)
    requires WellShaped(g) && Valid(now) && WellFormedSchedule(s)
    requires !s.active && AtOrBefore(s.due, now) && InRange(s.chip, s.pin)
    ensures var o := Step(s, g, now, sec);
            && o.ok && o.s.active
            && o.s.overdueStart == Some(AddSeconds(now, ParseTimedelta(Some(s.overdue))))
            && o.grid == SetCell(g, s.chip, s.pin, 1)
            && (o.s.flashing <==> ParseTimedelta(Some(s.overdue)) <= 0)
            && (o.s.flashing ==> o.s.lastFlash == Some(sec))
  {
    var d := ParseTimedelta(Some(s.overdue));
    var lit := SetCell(g, s.chip, s.pin, 1);
    var a := Activate(s, g, now);
    assert a == Outcome(s.(active := true, overdueStart := Some(AddSeconds(now, d))), lit, true);
    assert lit[s.chip][s.pin] == 1;
    assert Repair(a.s, a.grid) == a;
    var st := StartFlashing(a.s, now, sec);
    assert st.flashing <==> AtOrBefore(AddSeconds(now, d), now) by {
      assert !a.s.flashing;
    }
    assert Step(s, g, now, sec) == Flash(st, lit, sec);
    assert Flash(st, lit, sec) == Outcome(st, lit, true);
    AddSecondsMonotone(now, d);
    if d < 0 {
      AddSecondsInverse(now, d);
      AddSecondsMonotone(AddSeconds(now, d), -d);
    }
  }

  /** An active schedule before its overdue time keeps its light on: a light
      found off is switched back on, and nothing else changes. */
  lemma StepRepairs(s: Schedule, g: Grid, now: DateTime, sec: int)
    requires WellShaped(g) && Valid(now) && WellFormedSchedule(s) && InRange(s.chip, s.pin)
    requires s.active && !s.flashing && !(s.overdueStart.Some? && AtOrBefore(s.overdueStart.value, now))
    ensures var o := Step(s, g, now, sec);
            && o.ok && o.s == s
            && o.grid == if g[s.chip][s.pin] == 0 then SetCell(g, s.chip, s.pin, 1) else g
  {
  }

  /** An active schedule starts flashing once its overdue time has come. */
  lemma StepStartsFlashing(s: Schedule, g: Grid, now: DateTime, sec: int)
    requires WellShaped(g) && Valid(now) && WellFormedSchedule(s) && InRange(s.chip, s.pin)
    requires s.active && !s.flashing && s.overdueStart.Some? && AtOrBefore(s.overdueStart.value, now)
    ensures var o := Step(s, g, now, sec);
            o.s.flashing && o.s.lastFlash == Some(sec) && o.grid[s.chip][s.pin] != 0
  {
  }

  /** A flashing schedule toggles its light exactly when the second differs
      from the one of its last toggle, and records the current second. */
  lemma StepFlashes(s: Schedule, g: Grid, now: DateTime, sec: int)
    requires WellShaped(g) && Valid(now) && WellFormedSchedule(s) && InRange(s.chip, s.pin)
    requires s.flashing
    ensures var o := Step(s, g, now, sec);
            && o.s.lastFlash == Some(sec)
            && o.grid == if s.lastFlash == Some(sec) then g
                         else SetCell(g, s.chip, s.pin, Toggled(g[s.chip][s.pin]))
  {
  }

  /** Within one second a flashing light toggles at most once: a second step
      with the same clock second leaves the grid alone. */
  lemma FlashOncePerSecond(s: Schedule, g: Grid, now: DateTime, sec: int)
    requires WellShaped(g) && Valid(now) && WellFormedSchedule(s) && InRange(s.chip, s.pin)
    ensures var o := Step(s, g, now, sec);
            o.s.flashing ==> Step(o.s, o.grid, now, sec).grid == o.grid
  {
  }

  /** The state of the table and grid after the first `n` schedules of a tick. */
  datatype TickState = TickState(schedules: seq<Schedule>, grid: Grid, alive: bool)

  function TickPrefix(ss: seq<Schedule>, g: Grid, now: DateTime, sec: int, n: nat): (r: TickState)
    requires n <= |ss| && WellShaped(g) && Valid(now) && WellFormed(ss)
    ensures |r.schedules| == |ss| && r.schedules[n..] == ss[n..]
    ensures WellShaped(r.grid) && WellFormed(r.schedules)
  {
    if n == 0 then TickState(ss, g, true)
    else
      var r := TickPrefix(ss, g, now, sec, n - 1);
      if !r.alive then r
      else
        assert r.schedules[n - 1] == ss[n - 1];
        var o := Step(r.schedules[n - 1], r.grid, now, sec);
        TickState(r.schedules[n - 1 := o.s], o.grid, o.ok)
  }

  /** Once the scheduler thread has died, the rest of the tick does nothing. */
  lemma {:induction false} TickStopsAfterCrash(ss: seq<Schedule>, g: Grid, now: DateTime, sec: int, n: nat, m: nat)
    requires n <= m <= |ss| && WellShaped(g) && Valid(now) && WellFormed(ss)
    requires !TickPrefix(ss, g, now, sec, n).alive
    ensures TickPrefix(ss, g, now, sec, m) == TickPrefix(ss, g, now, sec, n)
    decreases m
  {
    if m > n {
      TickStopsAfterCrash(ss, g, now, sec, n, m - 1);
    }
  }

  /** When every schedule names a light on the grid, a tick never kills the
      scheduler, and each schedule has been stepped in turn. */
  lemma {:induction false} TickInRangeStaysAlive(ss: seq<Schedule>, g: Grid, now: DateTime, sec: int, n: nat)
    requires n <= |ss| && WellShaped(g) && Valid(now) && WellFormed(ss)
    requires forall i :: 0 <= i < |ss| ==> InRange(ss[i].chip, ss[i].pin)
    ensures TickPrefix(ss, g, now, sec, n).alive
  {
    if n > 0 {
      TickInRangeStaysAlive(ss, g, now, sec, n - 1);
      var r := TickPrefix(ss, g, now, sec, n - 1);
      StepInRangeIsOk(r.schedules[n - 1], r.grid, now, sec);
    }
  }

  /** Switching a light off and then running a tick at the same time does
      not fire its repeating schedule again. */
  lemma ResetThenStepIsQuiet(ss: seq<Schedule>, chip: int, pin: int, now: DateTime, g: Grid, sec: int)
    requires WellFormed(ss) && Valid(now) && ResetTerminates(ss, chip, pin, now) && WellShaped(g)
    requires Count(ss, chip, pin) > 0 && ss[FirstMatch(ss, chip, pin).value].repeat != []
    ensures var i := FirstMatch(ss, chip, pin).value;
            var r := Reset(ss, chip, pin, now);
            Step(r[i], g, now, sec) == Outcome(r[i], g, true)
  {
    var i := FirstMatch(ss, chip, pin).value;
    var r := Reset(ss, chip, pin, now);
    assert r[i] == Rearmed(ss[i], now);
    StepNotDue(r[i], g, now, sec);
  }
}

=== FILE: state_server.dfy ===
/** The state kept by server/state_server.py, `STATES` and `SCHEDULES`, and
    the operations that change it: the POST handlers, `set_state`,
    `handle_reset` and one iteration of `schedule_loop`. Each request and each
    tick runs to completion before the next one starts. */
module StateServer {
  import opened Records
  import opened Calendar
  import opened Intervals
  import opened ScheduleTable

  /** `POST /state` after JSON decoding: None stands for a missing key or a
      value `int()` rejects; `state` is the truthiness of the value sent. */
  datatype StateRequest = StateRequest(chip: Option<int>, pin: Option<int>, state: Option<bool>)

  /** `POST /schedule` after decoding; `due` is None when the ISO string does
      not parse. A missing or null interval is the empty record. */
  datatype ScheduleRequest = ScheduleRequest(
    chip: Option<int>, pin: Option<int>, name: string, due: Option<DateTime>,
    repeat: Interval, overdue: Interval)

  /** `POST /schedule/delete` after decoding. */
  datatype KeyRequest = KeyRequest(chip: Option<int>, pin: Option<int>)

  const Ok := 200
  const BadRequest := 400

  function ZeroGrid(): (g: Grid)
    ensures WellShaped(g) && forall c, p :: 0 <= c < NumChips && 0 <= p < NumPins ==> g[c][p] == 0
  {
    seq(NumChips, _ => seq(NumPins, _ => 0))
  }

  /** The `while` loop of `handle_reset`: advance the due date once, then
      again for as long as it is not after `now`. */
  method RollForward(start: DateTime, iv: Interval, now: DateTime) returns (due: DateTime)
    requires Calendar.Valid(start) && Calendar.Valid(now) && Rolls(start, iv, now)
    ensures due == NextDueAfter(start, iv, now)
  {
    due := AddInterval(start, iv);
    while AtOrBefore(due, now)
      invariant Calendar.Valid(due)
      invariant Forward(iv) || Before(now, due)
      invariant NextDueAfter(start, iv, now) == if Before(now, due) then due else NextDueAfter(due, iv, now)
      decreases MonthIndex(now) - MonthIndex(due), 31 - due.day, SecondsPerDay - due.second
    {
      var next := AddInterval(due, iv);
      ForwardAdvances(due, iv);
      MonthIndexMonotone(due, next);
      MonthIndexMonotone(due, now);
      due := next;
    }
  }

  class Server {
    var states: Grid
    var schedules: seq<Schedule>

    ghost predicate Valid()
      reads this
    {
      WellShaped(states) && WellFormed(schedules)
    }

    /** The state when neither file exists yet: all lights off, no schedules. */
    constructor ()
      ensures Valid() && states == ZeroGrid() && schedules == []
    {
      states := ZeroGrid();
      schedules := [];
    }

    /** `set_state`: write one cell. */
    method SetState(chip: nat, pin: nat, state: int)
      requires Valid() && chip < NumChips && pin < NumPins
      modifies this
      ensures Valid() && schedules == old(schedules)
      ensures states == SetCell(old(states), chip, pin, state)
    {
      states := states[chip := states[chip][pin := state]];
    }

    /** The loop shared by `POST /schedule` and `POST /schedule/delete`:
        walk a copy of the list and `remove` each schedule of the light. */
    method RemoveLight(chip: int, pin: int)
      requires Valid()
      modifies this`schedules
      ensures Valid() && states == old(states)
      ensures schedules == Without(old(schedules), chip, pin)
    {
      var snapshot := schedules;
      var rest := snapshot;
      var i := 0;
      while i < |snapshot|
        invariant 0 <= i <= |snapshot|
        invariant rest == Without(snapshot[..i], chip, pin) + snapshot[i..]
      {
        var s := snapshot[i];
        RemoveTurn(rest, snapshot, i, chip, pin);
        if HasKey(s, chip, pin) {
          rest := RemoveFirst(rest, s);
        }
        i := i + 1;
      }
      assert snapshot[..i] == snapshot;
      schedules := rest;
      WithoutWellFormed(snapshot, chip, pin);
    }

    /** `POST /schedule`: replace the light's schedule by a new, idle one. */
    method PostSchedule(req: ScheduleRequest) returns (status: int)
      requires Valid()
      requires req.due.Some? ==> Calendar.Valid(req.due.value)
      modifies this
      ensures Valid() && states == old(states)
      ensures status == Ok <==> req.chip.Some? && req.pin.Some? && req.due.Some?
      ensures status != Ok ==> status == BadRequest && schedules == old(schedules)
      ensures status == Ok ==>
                schedules == Upsert(old(schedules), NewSchedule(req.chip.value, req.pin.value, req.name,
                                                                req.due.value, req.repeat, req.overdue))
    {
      if req.chip.None? || req.pin.None? || req.due.None? {
        return BadRequest;
      }
      var chip, pin := req.chip.value, req.pin.value;
      RemoveLight(chip, pin);
      schedules := schedules + [NewSchedule(chip, pin, req.name, req.due.value, req.repeat, req.overdue)];
      status := Ok;
    }

    /** `POST /schedule/delete`: drop every schedule of the light; a light
        without one is a successful no-op. */
    method PostDelete(req: KeyRequest) returns (status: int)
      requires Valid()
      modifies this
      ensures Valid() && states == old(states)
      ensures status == Ok <==> req.chip.Some? && req.pin.Some?
      ensures status != Ok ==> status == BadRequest && schedules == old(schedules)
      ensures status == Ok ==> schedules == Without(old(schedules), req.chip.value, req.pin.value)
    {
      if req.chip.None? || req.pin.None? {
        return BadRequest;
      }
      RemoveLight(req.chip.value, req.pin.value);
      status := Ok;
    }

    /** `handle_reset`: the light was switched off at `now`. Find the
        light's first schedule; re-arm it if it repeats, otherwise remove it. */
    method HandleReset(chip: int, pin: int, now: DateTime)
      requires Valid() && Calendar.Valid(now) && ResetTerminates(schedules, chip, pin, now)
      modifies this
      ensures Valid() && states == old(states)
      ensures schedules == Reset(old(schedules), chip, pin, now)
    {
      var snapshot := schedules;
      var i := 0;
      while i < |snapshot| && !HasKey(snapshot[i], chip, pin)
        invariant 0 <= i <= |snapshot|
        invariant forall j :: 0 <= j < i ==> !HasKey(snapshot[j], chip, pin)
      {
        i := i + 1;
      }
      FirstMatchAt(snapshot, i, chip, pin);
      if i == |snapshot| {
        return;
      }
      var s := snapshot[i];
      if s.repeat != [] {
        var due := RollForward(s.due, s.repeat, now);
        schedules := schedules[i := s.(active := false, flashing := false, due := due)];
        assert schedules[i] == Rearmed(s, now);
      } else {
        ResetOneShotAt(snapshot, i, chip, pin, now);
        schedules := RemoveFirst(schedules, s);
      }
    }

    /** `POST /state`: switch one light on or off. Switching it off counts
        as dealing with its schedule. Malformed or out-of-range requests
        change nothing. */
    method PostState(req: StateRequest, now: DateTime) returns (status: int)
      requires Valid() && Calendar.Valid(now)
      requires req.chip.Some? && req.pin.Some? && req.state == Some(false) && InRange(req.chip.value, req.pin.value)
               ==> ResetTerminates(schedules, req.chip.value, req.pin.value, now)
      modifies this
      ensures Valid()
      ensures status == Ok <==> req.chip.Some? && req.pin.Some? && req.state.Some?
                                && InRange(req.chip.value, req.pin.value)
      ensures status != Ok ==> status == BadRequest && states == old(states) && schedules == old(schedules)
      ensures status == Ok ==>
                && states == SetCell(old(states), req.chip.value, req.pin.value, if req.state.value then 1 else 0)
                && schedules == if req.state.value then old(schedules)
                                else Reset(old(schedules), req.chip.value, req.pin.value, now)
    {
      if req.chip.None? || req.pin.None? || req.state.None? {
        return BadRequest;
      }
      var chip, pin := req.chip.value, req.pin.value;
      var state := if req.state.value then 1 else 0;
      if !InRange(chip, pin) {
        return BadRequest;
      }
      SetState(chip, pin, state);
      if state == 0 {
        HandleReset(chip, pin, now);
      }
      status := Ok;
    }

    /** One iteration of `schedule_loop` at datetime `now` and whole-second
        clock `sec`. `alive` is false when an out-of-range schedule made the
        thread die; the schedules after it were not visited, and the caller
        makes no further call, since no thread is left to make it. */
    method Tick(now: DateTime, sec: int) returns (alive: bool)
      requires Valid() && Calendar.Valid(now)
      modifies this
      ensures Valid()
      ensures TickState(schedules, states, alive) == TickPrefix(old(schedules), old(states), now, sec, |old(schedules)|)
    {
      ghost var start, grid0 := schedules, states;
      var i := 0;
      alive := true;
      while i < |schedules|
        invariant 0 <= i <= |schedules| == |start|
        invariant Valid()
        invariant TickState(schedules, states, alive) == TickPrefix(start, grid0, now, sec, i)
      {
        if !alive {
          TickStopsAfterCrash(start, grid0, now, sec, i, |start|);
          return;
        }
        var o := Step(schedules[i], states, now, sec);
        schedules, states, alive := schedules[i := o.s], o.grid, o.ok;
        i := i + 1;
      }
    }
  }
}

=== FILE: web_app.dfy ===
/** The pure helpers of server/web/app.js: the physical button layout and
    its labels, `labelFor` and `formatInterval`. */
module WebApp {
  import opened Records
  import opened JsText

  /** `PIN_LAYOUT`: three rows of the panel, each a list of (chip, pin). */
  const PinLayout: seq<seq<(int, int)>> := [
    [(0, 1), (0, 0), (1, 1), (1, 0), (2, 1), (2, 0)],
    [(0, 3), (0, 2), (1, 3), (1, 2), (2, 3), (2, 2)],
    [(0, 5), (0, 4), (1, 5), (1, 4), (2, 5), (2, 4)]
  ]

  /** `PIN_LABELS`: the label of the button at each row-major position. */
  const PinLabels: seq<string> := [
    "1", "2", "3", "4", "5", "6",
    "7", "8", "9", "10", "11", "12",
    "13", "14", "15", "16", "17", "18"
  ]

  /** `Array.prototype.flat` for one level of nesting. */
  function Flatten<T>(rows: seq<seq<T>>): (r: seq<T>)
    ensures rows != [] ==> |rows[0]| <= |r| && r[..|rows[0]|] == rows[0]
    ensures (forall i :: 0 <= i < |rows| ==> |rows[i]| == 6) ==> |r| == 6 * |rows|
  {
    if rows == [] then [] else rows[0] + Flatten(rows[1..])
  }

  /** `findIndex`: the first position holding `x`, or -1. */
  function FindIndex<T(==)>(xs: seq<T>, x: T): (i: int)
    ensures -1 <= i < |xs|
    ensures i == -1 <==> x !in xs
    ensures 0 <= i ==> xs[i] == x && forall j :: 0 <= j < i ==> xs[j] != x
  {
    if xs == [] then -1
    else if xs[0] == x then 0
    else var k := FindIndex(xs[1..], x); if k == -1 then -1 else k + 1
  }

  /** `labelFor`: the label of a button of the layout; `chip/pin` for a
      pair outside it (`PIN_LABELS[-1]` is undefined, hence falsy). */
  function LabelFor(chip: int, pin: int): (r: string)
    ensures r != ""
  {
    var idx := FindIndex(Flatten(PinLayout), (chip, pin));
    if 0 <= idx < |PinLabels| && PinLabels[idx] != "" then PinLabels[idx]
    else IntToString(chip) + "/" + IntToString(pin)
  }

  predicate OnPanel(chip: int, pin: int) {
    0 <= chip < 3 && 0 <= pin < 6
  }

  /** Row-major position of a light on the panel: pins 2r and 2r+1 share
      row r, chips run left to right, the odd pin first. */
  function LayoutIndex(chip: int, pin: int): (k: nat)
    requires OnPanel(chip, pin)
    ensures k < 18
  {
    (pin / 2) * 6 + 2 * chip + (1 - pin % 2)
  }

  /** The light at row-major position `k` of the panel. */
  function LayoutAt(k: nat): (cp: (int, int))
    requires k < 18
  {
    ((k % 6) / 2, 2 * (k / 6) + 1 - k % 2)
  }

  /** The flattened layout, position by position. */
  lemma FlatLayout()
    ensures |Flatten(PinLayout)| == 18
    ensures forall k :: 0 <= k < 18 ==> Flatten(PinLayout)[k] == LayoutAt(k)
  {
    var rows := PinLayout;
    FlatRows();
    var flat := Flatten(rows);
    RowLayout(0);
    RowLayout(1);
    RowLayout(2);
    forall k | 0 <= k < 18 ensures flat[k] == LayoutAt(k) {
      if k < 6 {
        assert flat[k] == rows[0][k] == LayoutAt(6 * 0 + k);
      } else if k < 12 {
        assert flat[k] == rows[1][k - 6] == LayoutAt(6 * 1 + (k - 6));
      } else {
        assert flat[k] == rows[2][k - 12] == LayoutAt(6 * 2 + (k - 12));
      }
    }
  }

  lemma FlatRows()
    ensures Flatten(PinLayout) == PinLayout[0] + PinLayout[1] + PinLayout[2]
  {
    var rows := PinLayout;
    assert Flatten(rows[3..]) == [];
    assert Flatten(rows[2..]) == rows[2];
    assert Flatten(rows[1..]) == rows[1] + rows[2];
  }

  /** Row `r` of the layout holds positions `6r` to `6r + 5`. */
  lemma RowLayout(r: nat)
    requires r < 3
    ensures forall c :: 0 <= c < 6 ==> PinLayout[r][c] == LayoutAt(6 * r + c)
  {
    forall c | 0 <= c < 6 ensures PinLayout[r][c] == LayoutAt(6 * r + c) {
      DivMod6(6 * r + c, r, c);
    }
  }

  lemma LayoutAtOnPanel(k: nat)
    requires k < 18
    ensures OnPanel(LayoutAt(k).0, LayoutAt(k).1) && LayoutIndex(LayoutAt(k).0, LayoutAt(k).1) == k
  {
    var r, c := k / 6, k % 6;
    assert k == 6 * r + c;
    var chip, pin := c / 2, 2 * r + 1 - c % 2;
    assert pin / 2 == r && pin % 2 == 1 - c % 2;
  }

  lemma DivMod2(n: int, q: int, r: int)
    requires n == q * 2 + r && 0 <= r < 2
    ensures n / 2 == q && n % 2 == r
  {
  }

  lemma DivMod6(n: int, q: int, r: int)
    requires n == q * 6 + r && 0 <= r < 6
    ensures n / 6 == q && n % 6 == r
  {
  }

  lemma LayoutIndexInverse(chip: int, pin: int)
    requires OnPanel(chip, pin)
    ensures LayoutAt(LayoutIndex(chip, pin)) == (chip, pin)
  {
    var k := LayoutIndex(chip, pin);
    var r, b := pin / 2, pin % 2;
    DivMod2(pin, r, b);
    DivMod6(k, r, 2 * chip + 1 - b);
    DivMod2(k, 3 * r + chip, 1 - b);
    DivMod2(2 * chip + 1 - b, chip, 1 - b);
  }

  /** The 18 layout entries are exactly the 3 x 6 lights, each once, and a
      light sits at `LayoutIndex`. */
  lemma LayoutIsPanel(chip: int, pin: int)
    ensures (chip, pin) in Flatten(PinLayout) <==> OnPanel(chip, pin)
    ensures OnPanel(chip, pin) ==> FindIndex(Flatten(PinLayout), (chip, pin)) == LayoutIndex(chip, pin)
  {
    FlatLayout();
    var flat := Flatten(PinLayout);
    var i := FindIndex(flat, (chip, pin));
    if 0 <= i {
      assert flat[i] == LayoutAt(i) == (chip, pin);
      LayoutAtOnPanel(i);
    }
    if OnPanel(chip, pin) {
      var k := LayoutIndex(chip, pin);
      LayoutIndexInverse(chip, pin);
      assert flat[k] == (chip, pin);
      assert 0 <= i;
      LayoutAtOnPanel(i);
    }
  }

  lemma LabelsAreNumbers()
    ensures |PinLabels| == 18 && forall k :: 0 <= k < 18 ==> PinLabels[k] == NatToString(k + 1)
  {
    assert NatToString(10) == "10";
    assert NatToString(11) == "11";
    assert NatToString(12) == "12";
    assert NatToString(13) == "13";
    assert NatToString(14) == "14";
    assert NatToString(15) == "15";
    assert NatToString(16) == "16";
    assert NatToString(17) == "17";
    assert NatToString(18) == "18";
  }

  /** A light of the panel is labelled with its 1-based row-major position. */
  lemma LabelForOnPanel(chip: int, pin: int)
    requires OnPanel(chip, pin)
    ensures LabelFor(chip, pin) == PinLabels[LayoutIndex(chip, pin)] == NatToString(LayoutIndex(chip, pin) + 1)
  {
    LayoutIsPanel(chip, pin);
    LabelsAreNumbers();
  }

  /** Different lights of the panel sit at different layout positions. */
  lemma LayoutIndexInjective(c1: int, p1: int, c2: int, p2: int)
    requires OnPanel(c1, p1) && OnPanel(c2, p2) && (c1, p1) != (c2, p2)
    ensures LayoutIndex(c1, p1) != LayoutIndex(c2, p2)
  {
    LayoutIndexInverse(c1, p1);
    LayoutIndexInverse(c2, p2);
  }

  /** Different lights of the panel get different labels. */
  lemma LabelsDistinct(c1: int, p1: int, c2: int, p2: int)
    requires OnPanel(c1, p1) && OnPanel(c2, p2) && (c1, p1) != (c2, p2)
    ensures LabelFor(c1, p1) != LabelFor(c2, p2)
  {
    LayoutIndexInjective(c1, p1, c2, p2);
    var k1, k2 := LayoutIndex(c1, p1), LayoutIndex(c2, p2);
    LabelForOnPanel(c1, p1);
    LabelForOnPanel(c2, p2);
    NatToStringInjective(k1 + 1, k2 + 1);
  }

  /** A pair outside the panel is shown as `chip/pin`. */
  lemma LabelForOffPanel(chip: int, pin: int)
    requires !OnPanel(chip, pin)
    ensures LabelFor(chip, pin) == IntToString(chip) + "/" + IntToString(pin)
  {
    LayoutIsPanel(chip, pin);
  }

  /** One `${v} ${k}` entry. */
  function EntryText(e: (string, int)): (t: string)
    ensures var n := |IntToString(e.1)|;
            n < |t| && t[..n] == IntToString(e.1) && t[n] == ' ' && t[n + 1..] == e.0
  {
    IntToString(e.1) + " " + e.0
  }

  /** `join(' ')`. */
  function Join(parts: seq<string>): (r: string)
    ensures parts == [] ==> r == ""
  {
    if parts == [] then "" else if |parts| == 1 then parts[0] else parts[0] + " " + Join(parts[1..])
  }

  /** `formatInterval`: null and undefined format like `{}`. */
  function FormatInterval(obj: Option<Interval>): (r: string)
    ensures r == "" <==> obj.None? || obj.value == []
  {
    var entries := if obj.None? then [] else obj.value;
    Join(seq(|entries|, i requires 0 <= i < |entries| => EntryText(entries[i])))
  }

  lemma {:induction false} JoinAppend(parts: seq<string>, last: string)
    requires parts != []
    ensures Join(parts + [last]) == Join(parts) + " " + last
  {
    if |parts| > 1 {
      assert (parts + [last])[1..] == parts[1..] + [last];
      JoinAppend(parts[1..], last);
    }
  }

  /** Entries appear in key order, one `v k` each, separated by one space. */
  lemma FormatIntervalAppend(iv: Interval, key: string, v: int)
    ensures FormatInterval(Some(iv + [(key, v)])) ==
              if iv == [] then IntToString(v) + " " + key
              else FormatInterval(Some(iv)) + " " + IntToString(v) + " " + key
  {
    var parts := seq(|iv|, i requires 0 <= i < |iv| => EntryText(iv[i]));
    var whole := iv + [(key, v)];
    assert seq(|whole|, i requires 0 <= i < |whole| => EntryText(whole[i])) == parts + [EntryText((key, v))];
    if iv != [] {
      JoinAppend(parts, EntryText((key, v)));
    }
  }
}

=== FILE: web_form.dfy ===
/** The schedule form of server/web/app.js as an object: the text of its
    inputs, which preset buttons carry the `active` class and whether the
    advanced-repeat panel and the delete button are hidden. `populateForm`,
    the two preset toggles and the payload built by `submitForm` act on it. */
module WebForm {
  import opened Records
  import opened JsText
  import opened WebApp

  datatype RepeatPreset = Daily | Weekly
  datatype OverduePreset = OneDay | ThreeDays

  /** A schedule as `GET /schedules` delivers it to the browser. The server
      always sends both intervals, `{}` for none; the client also copes with
      a missing one (None). */
  datatype ClientSchedule = ClientSchedule(
    chip: int, pin: int, name: string, due: string,
    repeat: Option<Interval>, overdue: Option<Interval>)

  /** A snapshot of the form, for stating what the operations do. */
  datatype FormState = FormState(
    chip: string, pin: string, name: string, due: string,
    repeatDays: string, repeatHours: string, overdueDays: string, overdueHours: string,
    repeatActive: set<RepeatPreset>, overdueActive: set<OverduePreset>,
    advancedHidden: bool, deleteHidden: bool, selected: Option<(int, int)>)

  /** An interval as `submitForm` sends it; a field `parseInt` cannot read
      is NaN, which JSON writes as null (None). */
  type PayloadInterval = seq<(string, Option<int>)>

  datatype Payload = Payload(
    chip: Option<int>, pin: Option<int>, name: string, due: string,
    repeat: Option<PayloadInterval>, overdue: Option<PayloadInterval>)

  /** `v || ''` for an interval value: absent and zero give the empty text. */
  function FieldText(v: Option<int>): (t: string)
    ensures t == "" <==> v.None? || v.value == 0
    ensures t != "" ==> ParseInt(t) == Some(v.value)
  {
    if v.Some? && v.value != 0 then (ParseIntToString(v.value); IntToString(v.value)) else ""
  }

  /** JavaScript truthiness of an interval value that may be missing:
      exactly the values `v || ''` shows. */
  predicate Truthy(v: Option<int>)
    ensures Truthy(v) <==> FieldText(v) != ""
  {
    v.Some? && v.value != 0
  }

  /** `s.repeat?.[key]`: undefined when the record or the key is missing. */
  function Field(iv: Option<Interval>, key: string): (r: Option<int>)
    ensures iv.None? ==> r.None?
    ensures r.Some? ==> (key, r.value) in iv.value
    ensures iv.Some? && (exists i :: 0 <= i < |iv.value| && iv.value[i].0 == key) ==> r.Some?
  {
    if iv.None? then None else Lookup(iv.value, key)
  }

  /** How `populateForm` shows a repeat interval: one preset button, or the
      advanced panel, or (no interval at all) neither. */
  datatype RepeatView = NoRepeat | RepeatButton(p: RepeatPreset) | RepeatAdvanced

  function ClassifyRepeat(iv: Option<Interval>): (v: RepeatView)
    ensures iv.None? <==> v == NoRepeat
    ensures v == RepeatButton(Daily) <==> Field(iv, "days") == Some(1) && !Truthy(Field(iv, "hours"))
    ensures v == RepeatButton(Weekly) <==> Field(iv, "days") == Some(7) && !Truthy(Field(iv, "hours"))
    ensures iv == Some([]) ==> v == RepeatAdvanced
  {
    if iv.None? then NoRepeat
    else
      var days, hours := Lookup(iv.value, "days"), Lookup(iv.value, "hours");
      if (days == Some(1) || days == Some(7)) && !Truthy(hours) then
        RepeatButton(if days == Some(1) then Daily else Weekly)
      else RepeatAdvanced
  }

  /** The overdue preset `populateForm` marks, if any. */
  function ClassifyOverdue(iv: Option<Interval>): (p: Option<OverduePreset>)
    ensures p == Some(OneDay) <==> Field(iv, "days") == Some(1) && !Truthy(Field(iv, "hours"))
    ensures p == Some(ThreeDays) <==> Field(iv, "days") == Some(3) && !Truthy(Field(iv, "hours"))
  {
    if iv.None? then None
    else
      var days, hours := Lookup(iv.value, "days"), Lookup(iv.value, "hours");
      if days == Some(1) && !Truthy(hours) then Some(OneDay)
      else if days == Some(3) && !Truthy(hours) then Some(ThreeDays)
      else None
  }

  function RepeatDaysText(p: RepeatPreset): string {
    match p
    case Daily => "1"
    case Weekly => "7"
  }

  function OverdueDaysText(p: OverduePreset): string {
    match p
    case OneDay => "1"
    case ThreeDays => "3"
  }

  /** What `toggleRepeatPreset` does to the form. */
  function ToggledRepeat(f: FormState, p: RepeatPreset): (g: FormState)
    ensures g.repeatHours == "" && g.advancedHidden && |g.repeatActive| <= 1
    ensures p in f.repeatActive ==> g.repeatActive == {} && g.repeatDays == ""
    ensures p !in f.repeatActive ==> g.repeatActive == {p} && g.repeatDays == RepeatDaysText(p)
    ensures g.(repeatDays := f.repeatDays, repeatHours := f.repeatHours, repeatActive := f.repeatActive,
               advancedHidden := f.advancedHidden) == f
  {
    if p in f.repeatActive then
      f.(repeatActive := {}, advancedHidden := true, repeatDays := "", repeatHours := "")
    else
      f.(repeatActive := {p}, advancedHidden := true, repeatDays := RepeatDaysText(p), repeatHours := "")
  }

  /** What `toggleOverduePreset` does to the form. */
  function ToggledOverdue(f: FormState, p: OverduePreset): (g: FormState)
    ensures g.overdueHours == "" && |g.overdueActive| <= 1
    ensures p in f.overdueActive ==> g.overdueActive == {} && g.overdueDays == ""
    ensures p !in f.overdueActive ==> g.overdueActive == {p} && g.overdueDays == OverdueDaysText(p)
    ensures g.(overdueDays := f.overdueDays, overdueHours := f.overdueHours, overdueActive := f.overdueActive) == f
  {
    if p in f.overdueActive then
      f.(overdueActive := {}, overdueDays := "", overdueHours := "")
    else
      f.(overdueActive := {p}, overdueDays := OverdueDaysText(p), overdueHours := "")
  }

  /** The optional `repeat` or `overdue` object of the payload: present iff
      one of its two inputs is non-empty, and then holding exactly the
      non-empty ones, days first. */
  function IntervalPayload(days: string, hours: string): (r: Option<PayloadInterval>)
    ensures r.Some? <==> days != "" || hours != ""
    ensures r.Some? ==> |r.value| == (if days != "" then 1 else 0) + (if hours != "" then 1 else 0)
    ensures r.Some? ==> forall e :: e in r.value ==> e.0 == "days" || e.0 == "hours"
    ensures r.Some? ==> (("days", ParseInt(days)) in r.value <==> days != "")
    ensures r.Some? ==> (("hours", ParseInt(hours)) in r.value <==> hours != "")
    ensures r.Some? && days != "" ==> r.value[0] == ("days", ParseInt(days))
  {
    var d := if days != "" then [("days", ParseInt(days))] else [];
    var h := if hours != "" then [("hours", ParseInt(hours))] else [];
    if d + h == [] then None else Some(d + h)
  }

  /** A payload interval as the server stores it and sends it back; a null
      value is left out here because the client never reads it as a number. */
  function Stored(p: PayloadInterval): (iv: Interval)
    ensures |iv| <= |p|
    ensures forall k, v :: (k, v) in iv <==> (k, Some(v)) in p
  {
    if p == [] then []
    else if p[0].1.None? then Stored(p[1..])
    else [(p[0].0, p[0].1.value)] + Stored(p[1..])
  }

  /** The entries kept keep the order in which they were sent. */
  lemma {:induction false} StoredAppend(p: PayloadInterval, q: PayloadInterval)
    ensures Stored(p + q) == Stored(p) + Stored(q)
  {
    if p != [] {
      assert (p + q)[1..] == p[1..] + q;
      StoredAppend(p[1..], q);
    } else {
      assert p + q == q;
    }
  }

  class ScheduleForm {
    var chip: string
    var pin: string
    var name: string
    var due: string
    var repeatDays: string
    var repeatHours: string
    var overdueDays: string
    var overdueHours: string
    var repeatActive: set<RepeatPreset>
    var overdueActive: set<OverduePreset>
    var advancedHidden: bool
    var deleteHidden: bool
    var selected: Option<(int, int)>

    function State(): FormState
      reads this
    {
      FormState(chip, pin, name, due, repeatDays, repeatHours, overdueDays, overdueHours,
                repeatActive, overdueActive, advancedHidden, deleteHidden, selected)
    }

    /** At most one preset of each group is active. */
    ghost predicate Valid()
      reads this
    {
      |repeatActive| <= 1 && |overdueActive| <= 1
    }

    constructor (f: FormState)
      requires |f.repeatActive| <= 1 && |f.overdueActive| <= 1
      ensures Valid() && State() == f
    {
      chip, pin, name, due := f.chip, f.pin, f.name, f.due;
      repeatDays, repeatHours, overdueDays, overdueHours := f.repeatDays, f.repeatHours, f.overdueDays, f.overdueHours;
      repeatActive, overdueActive := f.repeatActive, f.overdueActive;
      advancedHidden, deleteHidden, selected := f.advancedHidden, f.deleteHidden, f.selected;
    }

    /** `selectPin`: fill the chip and pin inputs and highlight the light's
        button, which exists only for a light of the panel. */
    method SelectPin(c: int, p: int)
      modifies this
      ensures State() == old(State()).(chip := IntToString(c), pin := IntToString(p),
                                      selected := if OnPanel(c, p) then Some((c, p)) else None)
    {
      chip := IntToString(c);
      pin := IntToString(p);
      selected := None;
      if OnPanel(c, p) {
        selected := Some((c, p));
      }
    }

    /** The repeat half of `populateForm`. */
    method ShowRepeat(iv: Option<Interval>)
      modifies this
      ensures repeatDays == FieldText(Field(iv, "days"))
      ensures repeatHours == FieldText(Field(iv, "hours"))
      ensures advancedHidden <==> ClassifyRepeat(iv) != RepeatAdvanced
      ensures repeatActive == if ClassifyRepeat(iv).RepeatButton? then {ClassifyRepeat(iv).p} else {}
      ensures State() == old(State()).(repeatDays := repeatDays, repeatHours := repeatHours,
                                      advancedHidden := advancedHidden, repeatActive := repeatActive)
    {
      advancedHidden := true;
      repeatDays := FieldText(Field(iv, "days"));
      repeatHours := FieldText(Field(iv, "hours"));
      repeatActive := {};
      if iv.Some? {
        var days, hours := Lookup(iv.value, "days"), Lookup(iv.value, "hours");
        if (days == Some(1) || days == Some(7)) && !Truthy(hours) {
          repeatActive := {if days == Some(1) then Daily else Weekly};
          assert ClassifyRepeat(iv) == RepeatButton(if days == Some(1) then Daily else Weekly);
        } else {
          advancedHidden := false;
          assert ClassifyRepeat(iv) == RepeatAdvanced;
        }
      }
    }

    /** The overdue half of `populateForm`. */
    method ShowOverdue(iv: Option<Interval>)
      modifies this
      ensures overdueDays == FieldText(Field(iv, "days"))
      ensures overdueHours == FieldText(Field(iv, "hours"))
      ensures overdueActive == if ClassifyOverdue(iv).Some? then {ClassifyOverdue(iv).value} else {}
      ensures State() == old(State()).(overdueDays := overdueDays, overdueHours := overdueHours,
                                      overdueActive := overdueActive)
    {
      overdueDays := FieldText(Field(iv, "days"));
      overdueHours := FieldText(Field(iv, "hours"));
      overdueActive := {};
      if iv.Some? {
        var days, hours := Lookup(iv.value, "days"), Lookup(iv.value, "hours");
        if days == Some(1) && !Truthy(hours) {
          overdueActive := {OneDay};
        } else if days == Some(3) && !Truthy(hours) {
          overdueActive := {ThreeDays};
        }
      }
    }

    /** `populateForm`: load a schedule for editing. `localDue` is its due
        date as local `YYYY-MM-DDTHH:MM` text. */
    method PopulateForm(s: ClientSchedule, localDue: string)
      modifies this
      ensures Valid()
      ensures chip == IntToString(s.chip) && pin == IntToString(s.pin)
      ensures selected == (if OnPanel(s.chip, s.pin) then Some((s.chip, s.pin)) else None)
      ensures name == s.name && due == localDue && !deleteHidden
      ensures repeatDays == FieldText(Field(s.repeat, "days"))
      ensures repeatHours == FieldText(Field(s.repeat, "hours"))
      ensures overdueDays == FieldText(Field(s.overdue, "days"))
      ensures overdueHours == FieldText(Field(s.overdue, "hours"))
      ensures advancedHidden <==> ClassifyRepeat(s.repeat) != RepeatAdvanced
      ensures repeatActive == if ClassifyRepeat(s.repeat).RepeatButton? then {ClassifyRepeat(s.repeat).p} else {}
      ensures overdueActive == if ClassifyOverdue(s.overdue).Some? then {ClassifyOverdue(s.overdue).value} else {}
    {
      SelectPin(s.chip, s.pin);
      name := s.name;
      due := localDue;
      ShowRepeat(s.repeat);
      ShowOverdue(s.overdue);
      deleteHidden := false;
    }

    /** `toggleRepeatPreset` for the button of preset `p`. */
    method ToggleRepeatPreset(p: RepeatPreset)
      requires Valid()
      modifies this
      ensures Valid()
      ensures State() == ToggledRepeat(old(State()), p)
    {
      var wasActive := p in repeatActive;
      repeatActive := {};
      advancedHidden := true;
      repeatDays := "";
      repeatHours := "";
      if !wasActive {
        repeatActive := {p};
        repeatDays := RepeatDaysText(p);
      }
    }

    /** `toggleOverduePreset` for the button of preset `p`. */
    method ToggleOverduePreset(p: OverduePreset)
      requires Valid()
      modifies this
      ensures Valid()
      ensures State() == ToggledOverdue(old(State()), p)
    {
      var wasActive := p in overdueActive;
      overdueActive := {};
      overdueDays := "";
      overdueHours := "";
      if !wasActive {
        overdueActive := {p};
        overdueDays := OverdueDaysText(p);
      }
    }

    /** The payload `submitForm` posts. `dueIso` is the due input converted
        to an ISO string, None when `new Date` cannot read it: then
        `toISOString` throws and nothing is sent. */
    method BuildPayload(dueIso: Option<string>) returns (r: Option<Payload>)
      ensures r.Some? <==> dueIso.Some?
      ensures r.Some? ==> r.value.chip == ParseInt(chip) && r.value.pin == ParseInt(pin)
      ensures r.Some? ==> r.value.name == name && r.value.due == dueIso.value
      ensures r.Some? ==> r.value.repeat == IntervalPayload(repeatDays, repeatHours)
      ensures r.Some? ==> r.value.overdue == IntervalPayload(overdueDays, overdueHours)
    {
      if dueIso.None? {
        return None;
      }
      var payload := Payload(ParseInt(chip), ParseInt(pin), name, dueIso.value, None, None);
      var repeat: PayloadInterval := [];
      if repeatDays != "" {
        repeat := repeat + [("days", ParseInt(repeatDays))];
      }
      if repeatHours != "" {
        repeat := repeat + [("hours", ParseInt(repeatHours))];
      }
      assert repeat == (if repeatDays != "" then [("days", ParseInt(repeatDays))] else []) +
                       (if repeatHours != "" then [("hours", ParseInt(repeatHours))] else []);
      if |repeat| > 0 {
        payload := payload.(repeat := Some(repeat));
      }
      var overdue: PayloadInterval := [];
      if overdueDays != "" {
        overdue := overdue + [("days", ParseInt(overdueDays))];
      }
      if overdueHours != "" {
        overdue := overdue + [("hours", ParseInt(overdueHours))];
      }
      assert overdue == (if overdueDays != "" then [("days", ParseInt(overdueDays))] else []) +
                        (if overdueHours != "" then [("hours", ParseInt(overdueHours))] else []);
      if |overdue| > 0 {
        payload := payload.(overdue := Some(overdue));
      }
      r := Some(payload);
    }
  }

  /** Clicking an inactive repeat preset twice leaves no preset active and
      the repeat inputs empty. */
  lemma RepeatToggleTwice(f: FormState, p: RepeatPreset)
    requires p !in f.repeatActive
    ensures ToggledRepeat(ToggledRepeat(f, p), p) ==
              f.(repeatActive := {}, advancedHidden := true, repeatDays := "", repeatHours := "")
  {
  }

  /** Clicking a second preset makes it the only active one. */
  lemma RepeatToggleSwitches(f: FormState, p: RepeatPreset, q: RepeatPreset)
    requires p != q
    ensures ToggledRepeat(ToggledRepeat(f, p), q).repeatActive == {q}
  {
  }

  lemma OverdueToggleTwice(f: FormState, p: OverduePreset)
    requires p !in f.overdueActive
    ensures ToggledOverdue(ToggledOverdue(f, p), p) ==
              f.(overdueActive := {}, overdueDays := "", overdueHours := "")
  {
  }

  /** Editing a schedule and submitting it unchanged sends back its
      non-zero days and hours, days first. */
  lemma {:induction false} PopulateThenSubmit(iv: Option<Interval>)
    ensures var days, hours := Field(iv, "days"), Field(iv, "hours");
            IntervalPayload(FieldText(days), FieldText(hours)) ==
              if !Truthy(days) && !Truthy(hours) then None
              else Some((if Truthy(days) then [("days", Some(days.value))] else []) +
                        (if Truthy(hours) then [("hours", Some(hours.value))] else []))
  {
  }

  /** A repeat preset chosen in the form comes back from the server as the
      same preset. */
  lemma RepeatPresetRoundTrip(p: RepeatPreset)
    ensures var sent := IntervalPayload(RepeatDaysText(p), "");
            sent.Some? && ClassifyRepeat(Some(Stored(sent.value))) == RepeatButton(p)
  {
    var sent := IntervalPayload(RepeatDaysText(p), "");
    if p == Daily {
      assert ParseInt("1") == Some(1) by { ParseIntToString(1); }
      assert Stored(sent.value) == [("days", 1)];
    } else {
      assert ParseInt("7") == Some(7) by { ParseIntToString(7); }
      assert Stored(sent.value) == [("days", 7)];
    }
  }

  /** An overdue preset chosen in the form comes back as the same preset. */
  lemma OverduePresetRoundTrip(p: OverduePreset)
    ensures var sent := IntervalPayload(OverdueDaysText(p), "");
            sent.Some? && ClassifyOverdue(Some(Stored(sent.value))) == Some(p)
  {
    var sent := IntervalPayload(OverdueDaysText(p), "");
    if p == OneDay {
      assert ParseInt("1") == Some(1) by { ParseIntToString(1); }
      assert Stored(sent.value) == [("days", 1)];
    } else {
      assert ParseInt("3") == Some(3) by { ParseIntToString(3); }
      assert Stored(sent.value) == [("days", 3)];
    }
  }
}
